=== FILE: README.md ===
# MedMoney payment back end, modelled in Dafny

MedMoney sells subscriptions that are billed through the Asaas payment
gateway. Its back end has four pieces of decision logic, and this project
models each one as pure functions over immutable data:

- **The Express gateway-notification receiver** (`POST /api/webhook/asaas`,
  module `WebhookDispatch`). It validates the payload and appends a delivery
  row to `asaas_logs` with `processed = false`. It then dispatches the event
  to one of seven handlers, which append `PAYMENT_<STATUS>` and
  `SUBSCRIPTION_<STATUS>` rows. Last, it flips the delivery row to processed.
- **The request shaping of the three `/api/create-*` routes** (module
  `GatewayRequests`). This covers the required-field checks, stripping
  non-digits from CPF/CNPJ, the PIX/BOLETO-only charge terms, the optional
  `externalReference`, the `plan_type` mapping, and the choice between
  forwarding to the gateway and answering with a simulated object.
- **The edge-function receiver** (module `EdgeWebhook`). It upserts the
  `payments` row keyed by `external_id`. It then cascades a status change to
  the matching `subscriptions` row: RECEIVED or CONFIRMED gives `active`,
  OVERDUE gives `overdue`, and anything else keeps the status.
- **The n8n forwarder** (module `N8nForward`). `sendToN8nWebhook` never
  throws. The route `POST /api/process-payment/n8n` around it validates the
  body, looks the plan up, forwards the request, logs the attempt and picks
  the response.
- **The database setup script** (module `SqlSetup`). It splits the SQL text
  on `;`, trims each piece and drops the empty ones. It then sends every
  command once, in order, with `;` re-appended, and a failure does not stop
  the loop.

`JsValues` holds the JavaScript pieces the other modules share:
- an `Option` type for a field that is either absent (`undefined` or `null`) or present;
- a `JsonString` type that keeps `undefined`, `null` and a string apart, for
  the two payment dates whose difference reaches the store;
- truthiness of optional strings and numbers;
- the `a || b` and `a || null` idioms.

Store calls are numbered in the order a request makes them. The set
`faults` names the calls that come back with an error, so every
error path is an ordinary input. The HTTP replies of the gateway and of n8n
are inputs too. The same goes for the result of a plan lookup, the clock,
and the random suffixes of simulated identifiers and URLs.

## Model

| member | source | states |
|---|---|---|
| JsValues.OrNull | supabase/functions/asaas-webhook/index.ts:115-121 | `x \|\| null` is null exactly when `x` is falsy (absent or empty), and is `x` otherwise |
| WebhookDispatch.HandleWebhook | webhook_handler.js:82-199 | A missing or empty `event` gets a 400 and nothing is written. The log is only ever appended to, and earlier rows are never touched. A failing first insert is a 500 with nothing written. Otherwise the delivery row is the first new row, and it ends processed exactly when the reply is a 200 with `handled = true`. `handled` is whether the event was recognised. An unknown event gets a 200 with `handled = false` and exactly one unprocessed row. A recognised event is acknowledged as handled exactly when its handler ran without error and the processed-flag update succeeded. Otherwise the reply is a 500, and the delivery row stays unprocessed (lines 163-181 and 191-198). The rows after the delivery row are exactly the ones the handler wrote, including those written before a failure |
| WebhookDispatch.HandlerPrefix | webhook_handler.js:873-960 | Every handler only appends to `asaas_logs`, and every row it appends has `processed = true` |
| WebhookDispatch.ClassifyMatchesRegistration | webhook_handler.js:128-161 | An event reaches handler `h` if and only if it is one of the names `h` is registered under. An event is recognised if and only if it is one of the nine known names |
| WebhookDispatch.Classify | webhook_handler.js:128-161 | An event is recognised exactly when it is one of the nine known names, and the handler it reaches is registered under that name |
| WebhookDispatch.RunHandler | webhook_handler.js:873-914 | A handler whose payload object is missing fails. With no store errors, a handler appends exactly the rows of the effect tables: the payment status for payment events, and the subscription status when there is a subscription to name |
| WebhookDispatch.UpdatePayment | webhook_handler.js:918-938 | One insert. If it fails, nothing is written and the error is a store error. If it succeeds, the processed `PAYMENT_<STATUS>` row holding the payment snapshot is appended. The call fails afterwards exactly when there is no payment object, because the success message reads `payment.id` |
| WebhookDispatch.UpdateSubscriptionStatus | webhook_handler.js:940-960 | One insert, which fails exactly when its call is faulted and then writes nothing. Otherwise it appends one processed row named `SUBSCRIPTION_` plus the upper-cased status, holding the subscription id and the lower-case status |
| WebhookDispatch.CanceledAliases | webhook_handler.js:141-146 | PAYMENT_DELETED, PAYMENT_REFUNDED and PAYMENT_CANCELED reach the same canceled handler |
| WebhookDispatch.DerivedEventNames | webhook_handler.js:924 | A derived row's event_type is `PAYMENT_` or `SUBSCRIPTION_` followed by the upper-cased status (also line 946) |
| WebhookDispatch.ToUpper | webhook_handler.js:924 | Upper-casing keeps the length and leaves no lower-case letter. Each lower-case letter becomes its capital, 32 code points lower, and every other character is kept (also line 946) |
| WebhookDispatch.AllStepsSucceed | webhook_handler.js:873-914 | With no store errors and the payload present, a recognised event gives a handled 200 and a processed delivery row. That row is followed by exactly the rows read off the effect tables: received/confirmed log `confirmed` (plus `active` for a subscription payment), overdue logs `overdue` twice, canceled logs only the payment, and the subscription events log `pending`/`active`/`canceled` |
| WebhookDispatch.CanceledLeavesSubscriptionAlone | webhook_handler.js:900-902 | Whatever the store does, a canceled, deleted or refunded payment never writes a subscription status row |
| WebhookDispatch.OverdueScenario | test_webhook.js:112-128 | The overdue subscription payment of the test script logs the delivery, the payment as PAYMENT_OVERDUE and the subscription as SUBSCRIPTION_OVERDUE, and it is answered as handled |
| WebhookDispatch.MissingPaymentIsServerError | webhook_handler.js:918-937 | A payment event without a payment object still appends its PAYMENT_ row. It then fails reading `payment.id`, which gives a 500, and the delivery row stays unprocessed. The PAYMENT_ row is the last row, marked processed, with a null payment snapshot |
| WebhookDispatch.PartialFailureKeepsEarlierRows | webhook_handler.js:873-898 | For a payment event that also updates a subscription, when the subscription's log insert fails (lines 940-953), the PAYMENT_ row appended just before stays in the log. The reply is a 500, and the delivery row stays unprocessed |
| GatewayRequests.DigitsOnly | webhook_handler.js:227 | The CPF/CNPJ sent to the gateway holds only digits and is no longer than the input |
| GatewayRequests.DigitsOnlyKeepsDigitStrings | webhook_handler.js:227 | A string that is all digits is sent unchanged |
| GatewayRequests.DigitsOnlyConcat | webhook_handler.js:227 | Stripping distributes over concatenation, so every digit is kept, in order |
| GatewayRequests.DigitsOnlyIdempotent | webhook_handler.js:227 | Stripping twice is the same as stripping once |
| GatewayRequests.CreateCustomer | webhook_handler.js:202-316 | The route rejects exactly when name, email or cpfCnpj is missing. It forwards only in production or with an API key, and then the body carries the digits-only CPF/CNPJ, the given name and email, the user id as externalReference, and notifications on. The simulated customer keeps the raw CPF/CNPJ |
| GatewayRequests.CustomerBodyIndependentOfEnv | webhook_handler.js:208-236 | The environment only decides between forwarding and simulating. Two forwarding environments send the same body, rejection does not depend on it, and a simulated customer is the forwarded one before its CPF/CNPJ is stripped |
| GatewayRequests.PaymentBodyFor | webhook_handler.js:343-364 | The body carries the given customer, value and billing type. A falsy due date or description becomes today or `Pagamento MedMoney`. `externalReference` is the userId when truthy and null otherwise. The zero terms and `postalService: false` exist exactly for PIX |
| GatewayRequests.PaymentBodyIndependentOfEnv | webhook_handler.js:343-367 | A complete request's payment body is the same whether the route simulates or forwards, whatever the environment and random token |
| GatewayRequests.PixKeysDependOnBillingTypeOnly | webhook_handler.js:351-363 | Two requests with the same billing type agree on the PIX-only keys, whatever else they carry |
| GatewayRequests.CreatePayment | webhook_handler.js:319-500 | The route rejects exactly when customerId, value or billingType is missing. The body carries the given customer, value and billing type. The zero discount/interest/fine terms and `postalService` appear exactly for PIX. `externalReference` is non-null exactly when userId is truthy, and then it is the userId. Only a PIX charge is simulated, and a simulated charge's invoice URL starts with the sandbox prefix |
| GatewayRequests.PlanType | webhook_handler.js:621 | `plan_type` is `annual` exactly when the cycle is YEARLY, and `monthly` otherwise (also line 761) |
| GatewayRequests.SubscriptionRowFor | webhook_handler.js:615-627 | A new subscriptions row starts `pending`, is `annual` exactly for a YEARLY cycle, and carries the gateway id and the price given |
| GatewayRequests.CreateSubscription | webhook_handler.js:503-794 | The route rejects exactly when customerId, value, billingType or cycle is missing. The body carries the given customer, billing type, value and cycle. The charge terms appear exactly for PIX and BOLETO. `externalReference` appears exactly when userId is truthy, and then it is the userId. The route simulates exactly in development or without an API key. In simulation the invoice URL exists exactly for PIX and BOLETO, and the row carries the simulated id |
| GatewayRequests.SubscriptionBodyFor | webhook_handler.js:530-550 | The body carries the given customer, billing type, value and cycle. A falsy due date or description becomes today or `Assinatura MedMoney`. The `externalReference` key exists exactly when userId is truthy and is then the userId. The zero terms exist exactly for PIX and BOLETO |
| GatewayRequests.SubscriptionBodyIndependentOfEnv | webhook_handler.js:530-563 | A complete request's subscription body is the same whether the route simulates or forwards. In simulation, an invoice URL comes with exactly the bodies that carry the zero terms |
| GatewayRequests.SubscriptionTermsDependOnBillingTypeOnly | webhook_handler.js:538-548 | Two requests with the same billing type agree on the charge-term keys |
| EdgeWebhook.Handle | supabase/functions/asaas-webhook/index.ts:30-95 | A non-POST request is a 405 and the tables are untouched. A body that is not JSON is a 500 before the configuration is checked (line 41). A missing configuration is a 500 for any body that parses (line 51). A JSON `null` body is a 500 only after that, when `.event` is read (line 59). An event outside the six PAYMENT_* types is a 200 with both tables unchanged. A 500 that is not a store error leaves the tables unchanged. Only a POSTed payment event can change a table. A payment event with a payment object reaches the upsert: with no store errors it is a 200 and the payment's row is in the table, and from unique ids it is the only row for that id and the ids stay unique |
| EdgeWebhook.PaymentsWithId | supabase/functions/asaas-webhook/index.ts:101-105 | The lookup by `external_id` returns only rows with that id, and every row with that id |
| EdgeWebhook.UpdatePayments | supabase/functions/asaas-webhook/index.ts:128-131 | The update rewrites the fields of exactly the rows with the id, keeps their created_at, and leaves every other row and the row count alone |
| EdgeWebhook.UniqueAtMostOne | supabase/functions/asaas-webhook/index.ts:101-105 | When ids are unique, at most one row matches the lookup |
| EdgeWebhook.UpsertPayment | supabase/functions/asaas-webhook/index.ts:101-146 | Only the write can fail, and a failed write changes nothing and is a store error. A successful write leaves at least one row for the payment, adds at most one row, and never touches subscriptions |
| EdgeWebhook.UpsertLeavesOneRow | supabase/functions/asaas-webhook/index.ts:101-146 | Starting from unique payment ids, an upsert with neither the lookup nor the write failing leaves exactly one row for the payment's id, and the ids stay unique |
| EdgeWebhook.UpsertUpdatesInPlace | supabase/functions/asaas-webhook/index.ts:126-134 | An existing row is updated in place: same position, same created_at, every written field replaced, all other rows and the subscriptions table unchanged |
| EdgeWebhook.UpsertInsertsWhenAbsent | supabase/functions/asaas-webhook/index.ts:135-146 | With no row for the id, exactly one row is appended, stamped with created_at |
| EdgeWebhook.OptionalFieldsStoredAsNull | supabase/functions/asaas-webhook/index.ts:107-124 | paymentDate, clientPaymentDate, invoiceUrl, invoiceNumber, externalReference and subscription are each stored as null exactly when they are falsy (undefined, null or empty), and each is stored unchanged otherwise |
| EdgeWebhook.FailedLookupDuplicates | supabase/functions/asaas-webhook/index.ts:101-105 | The lookup's error is discarded, so a failed lookup for an existing payment inserts a second row with the same id |
| EdgeWebhook.NextStatusTable | supabase/functions/asaas-webhook/index.ts:177-183 | This lemma states the behaviour of `NextSubscriptionStatus`. The new status is `active` exactly for RECEIVED/CONFIRMED (or an already active row under any event but OVERDUE). It is `overdue` exactly for OVERDUE (or an already overdue row under any other event except RECEIVED/CONFIRMED). Every other event keeps the prior status, and applying the rule twice is the same as once |
| EdgeWebhook.Cascade | supabase/functions/asaas-webhook/index.ts:160-202 | Payments and the number of subscription rows are never touched. Only the update can fail, and it then changes nothing. Without a subscription nothing happens, and the table changes only when exactly one row has the subscription's id. Conversely, when the lookup succeeds and finds exactly one row, a failing update is reported as a store error |
| EdgeWebhook.CascadeFrame | supabase/functions/asaas-webhook/index.ts:148-174 | The cascade never touches payments and never adds or removes rows. It writes nothing when the payment has no subscription or no row has that id, and it changes only rows whose external_id is the payment's subscription |
| EdgeWebhook.CascadeSetsStatus | supabase/functions/asaas-webhook/index.ts:176-196 | With one matching row and no errors, that row takes the status the event leads to, with updated_at set. RECEIVED/CONFIRMED make it `active` and OVERDUE makes it `overdue` |
| EdgeWebhook.CascadeWritesLastPaymentDate | supabase/functions/asaas-webhook/index.ts:188-191 | The updated row's last_payment_date is the payment date when truthy, and otherwise the client payment date as it came. A null clears the column, and only an undefined one keeps the old value |
| EdgeWebhook.ProcessPaymentEvent | supabase/functions/asaas-webhook/index.ts:98-157 | Every failure is a store error. A failed payment write stops the event before the cascade. Without a subscription the cascade does nothing. Whenever the payment write went through, the payment's row is in the table, and for a subscription payment the cascade then runs on the upserted tables |
| EdgeWebhook.SubscriptionPaymentSetsStatus | supabase/functions/asaas-webhook/index.ts:59-67 | Through the whole request: a payment event for a subscription with exactly one row, with the payment write and both subscription calls succeeding, is a 200. That row moves to the event's next status (lines 137-156): "active" for a received or confirmed payment, "overdue" for an overdue one |
| EdgeWebhook.StoreErrorsPropagate | supabase/functions/asaas-webhook/index.ts:133-156 | A failing payment write is a 500 carrying the store error, with the tables unchanged |
| EdgeWebhook.CascadeErrorsPropagate | supabase/functions/asaas-webhook/index.ts:195-200 | For any faults where the payment write and the subscription lookup succeed and the subscription update fails, the reply is a 500 carrying the store error. The payment row written before it stays written |
| EdgeWebhook.ReplayIsIdempotent | supabase/functions/asaas-webhook/index.ts:98-202 | Starting from unique payment ids, delivering the same notification twice, with no store errors and the same clock, leaves the tables as one delivery left them. With a later clock only the `updated_at` stamps would differ |
| EdgeWebhook.UpsertTwice | supabase/functions/asaas-webhook/index.ts:101-146 | Starting from unique payment ids, a second identical upsert changes nothing |
| EdgeWebhook.CascadeTwice | supabase/functions/asaas-webhook/index.ts:160-202 | A second identical cascade changes nothing |
| N8nForward.SendToN8n | n8n_webhook.js:20-67 | Success holds exactly when a URL is configured and the reply carries a truthy paymentUrl, and then the result's URL is the reply's. Every failure has a null URL and a non-empty message. A missing URL or a failed call is reported as a failure result rather than thrown |
| N8nForward.UnconfiguredIgnoresReply | n8n_webhook.js:23-28 | Without a configured URL nothing is posted, so the result does not depend on what the call would have produced, and it is a failure |
| N8nForward.PaymentUrlPassedThrough | n8n_webhook.js:33-56 | A configured URL and a reply with a non-empty payment URL give a success carrying exactly that URL and the reply's body |
| N8nForward.ReplyWithoutUrlIsNotAnError | n8n_webhook.js:37-50 | A reply without a usable payment URL is a failure with the fixed message and the reply's body, and it has no error field |
| N8nForward.ProcessPayment | n8n_webhook.js:74-169 | The route answers 400 exactly when a required field is missing. It answers 404 exactly for an unknown plan or a failed lookup, and otherwise 200 or 500, with success exactly on 200. n8n_logs grows by at most one row, and that row records the attempt's request and a success flag equal to the result's. A 200 carries the payment URL n8n returned. A complete request without a store client is a 500 with the thrown message, and nothing is logged. Once the plan is found, the row is appended exactly when its insert does not fail, and the reply is a 200 exactly when a URL is configured and n8n returned a payment URL, whatever the insert did |
| N8nForward.RejectionPrecedesLookup | n8n_webhook.js:89-94 | An incomplete body gets the same 400 whatever the store, the plan lookup or n8n would do, and nothing is logged |
| N8nForward.UnknownPlanPrecedesForwarding | n8n_webhook.js:103-115 | An unknown plan is a 404 that does not depend on the n8n configuration or reply, and nothing is logged |
| N8nForward.AttemptLoggedAndAnswered | n8n_webhook.js:136-160 | A forwarding attempt whose log insert succeeds appends one n8n_logs row whose success is the result's, and one whose insert fails appends nothing. Either way, a failed result gives a 500 with its message, and a successful one gives a 200 with its payment URL |
| N8nForward.NoStoreIsInternalError | n8n_webhook.js:97-101 | A complete request without a store client is a 500 carrying the thrown message (caught at lines 161-167), whatever the lookup, n8n and the log insert would do, and nothing is logged |
| SqlSetup.Split | setup_supabase.js:26 | Splitting yields one more piece than there are separators, and no piece holds a `;` |
| SqlSetup.JoinSplit | setup_supabase.js:26 | Joining the pieces with `;` gives back the original text |
| SqlSetup.TrimStart | setup_supabase.js:27 | What is left is a suffix that does not start with white space, and everything cut off is white space |
| SqlSetup.TrimEnd | setup_supabase.js:27 | What is left is a prefix that does not end with white space, and everything cut off is white space |
| SqlSetup.Trim | setup_supabase.js:27 | The result has no leading or trailing white space |
| SqlSetup.TrimIsSlice | setup_supabase.js:27 | `trim()` returns a contiguous slice of its input, and everything outside the slice is white space |
| SqlSetup.TrimIdempotent | setup_supabase.js:27 | Trimming twice is the same as trimming once |
| SqlSetup.TrimKeepsAbsence | setup_supabase.js:26-27 | Trimming a piece without `;` cannot produce one |
| SqlSetup.NonEmptyKeepsInOrder | setup_supabase.js:28 | The filter keeps exactly the non-empty entries, each once, in their original order |
| SqlSetup.FilterNonEmpty | setup_supabase.js:28 | The loop computes the filter, together with the index each kept entry came from |
| SqlSetup.TrimAndFilter | setup_supabase.js:27-28 | The commands are exactly the non-empty trimmed pieces, each traced to its piece in increasing order. None is empty, untrimmed or holds `;` |
| SqlSetup.ParseScript | setup_supabase.js:25-28 | The text splits into one more piece than it has `;`, so there is at most one more command than there are `;`. Each command is the trimmed form of the piece it is traced to, and the list equals the reference split-trim-filter of the text |
| SqlSetup.ExecuteSql | setup_supabase.js:31-49 | Every command is sent exactly once, in index order, as the command plus `;`. Exactly the failing or throwing calls are logged, and a failure never stops the loop |
| SqlSetup.SentQueryHasOneTerminator | setup_supabase.js:38 | A sent query ends with `;` and holds no other `;` |
| SqlSetup.RunSetup | setup_supabase.js:20-49 | From text to calls: the commands are the script's command list, and there is one call per command. Call `i` is the `i`-th call, sends command `i` followed by `;`, holds exactly one `;` (the last character), and gets reply `i` |

## Left out

- The health route, the `/api/subscription/:id/pix` route and server startup are left out. They are configuration and gateway passthrough with no decision logic.
- The gateway and n8n HTTP calls are replaced by their outcomes as inputs, and so are the database client calls. Row-level security and the SQL schema are not modelled.
- Timestamps, `Math.random` identifiers and URL suffixes, and the base64 PIX image are left out or taken as parameters. The JavaScript `Date` arithmetic for the next due date is taken as a parameter too.
- The `asaas_logs` rows that the create routes write for simulated objects, and the profile update after a customer is created, are left out. Each has its error caught and logged, so neither changes a response.
- Everything after the gateway reply in the create routes is left out: the response bodies, and the rows written from the gateway's data.
- Concurrent deliveries are not modelled. The lookup-then-insert race in the edge upsert needs interleaving, and every request here runs alone.
- The test scripts, the tunnel launcher, the placeholder receivers and the config-logging fragment are left out. None of them holds logic of the modelled components.
- WebhookDispatch.ToUpper: upper-cases ASCII letters only, because the statuses passed to it are fixed lower-case ASCII words.
- GatewayRequests and N8nForward: the request fields are modelled as strings only. A truthy field that is not a string is not modelled. In the customer route a non-string `cpfCnpj` makes `.replace` throw (webhook_handler.js:227), and the route's catch turns that into a 500. Elsewhere such a field would be passed on unchanged.
- GatewayRequests.CreatePayment: a value of `NaN` is not modelled. Values are reals, and truthiness is "non-zero".
- EdgeWebhook.Handle: the message in a 500 body is not modelled, only which failure caused it. A JSON array, number, string or boolean body is modelled as a notification with no event and no payment, which is how the code reads it. An `event` member that is not a string is not modelled.

## Notes on the code's behaviour

Some behaviours of the code are easy to miss. Each one is modelled as the code does it.

- The Express receiver rethrows a failure of the delivery-row insert or of the processed-flag update, which gives a 500.
- The edge function stores the payment's status string exactly as the payload sends it.
- `last_payment_date` is written as `paymentDate || clientPaymentDate`, without `|| null`. When the client payment date decides it and is `null`, the column is set to null. When it is missing from the payload, the key is `undefined`, so it drops out of the update and the column keeps its value. `EdgeWebhook.CascadeWritesLastPaymentDate` states the cases.
- The edge function looks subscriptions up by `external_id`, while the create routes write the gateway id into `asaas_subscription_id`.
- The create-payment route simulates only PIX charges. Other billing types fall through to the gateway call even when the environment asks for simulation.
- The simulated customer echoes the CPF/CNPJ as received, without stripping non-digits.
- The edge lookups discard their errors and read them as "no row". `EdgeWebhook.FailedLookupDuplicates` states the consequence.

=== FILE: edge_webhook.dfy ===
/** The edge-function receiver for gateway notifications.

    Unlike the Express receiver it writes the business tables: a payment
    event upserts the `payments` row whose external_id is the payment's id
    (look the row up, then update it in place or insert it), and a payment
    that belongs to a subscription then moves the matching `subscriptions`
    row to a status derived from the event.

    Tables are sequences of rows.  A lookup with `maybeSingle` yields a row
    only when exactly one row matches; an update touches every matching row.
    Store calls are numbered 0, 1, 2, ... in the order the request makes
    them, and `faults` is the set of numbers whose call returns an error.
    The lookups discard their error (a failed lookup reads as "no row"); the
    writes rethrow theirs.  `now` stands for every timestamp the request
    takes. */
module EdgeWebhook {
  import opened JsValues

  // ---------------------------------------------------------------------------
  // Payload and tables
  // ---------------------------------------------------------------------------

  /** `webhookData.payment` as the function's interface declares it.  The
      two dates keep undefined and null apart, because `last_payment_date`
      is written from them without a `|| null`. */
  datatype Payment = Payment(
    id: string, customer: string, value: real, netValue: real,
    billingType: string, status: string, dueDate: string,
    paymentDate: JsonString, clientPaymentDate: JsonString,
    invoiceUrl: Option<string>, invoiceNumber: Option<string>,
    externalReference: Option<string>, deleted: bool,
    subscription: Option<string>)

  /** A parsed JSON body: its `event` and `payment` members. */
  datatype Notification = Notification(event: Option<string>, payment: Option<Payment>)

  /** What `req.json()` yields.  Text that is not JSON makes it reject.  A
      JSON `null` parses, but reading `.event` from it throws.  Any other
      JSON value is read as a notification; an array, number, string or
      boolean has no `event` member, so it reads as `Notification(None, None)`. */
  datatype Body = Unparseable | JsonNull | Parsed(notification: Notification)

  datatype Request = Request(httpMethod: string, body: Body)

  /** The columns `processPaymentEvent` writes on both paths. */
  datatype PaymentFields = PaymentFields(
    externalId: string, customerId: string, value: real, netValue: real,
    billingType: string, status: string, dueDate: string,
    paymentDate: Option<string>, clientPaymentDate: Option<string>,
    invoiceUrl: Option<string>, invoiceNumber: Option<string>,
    externalReference: Option<string>, deleted: bool,
    subscriptionId: Option<string>, eventType: string, updatedAt: string)

  datatype PaymentRow = PaymentRow(fields: PaymentFields, createdAt: string)

  /** A subscriptions row; `userId` stands for the columns this function never writes. */
  datatype SubscriptionRow = SubscriptionRow(
    externalId: string, status: string, lastPaymentDate: Option<string>,
    updatedAt: string, userId: string)

  datatype Tables = Tables(payments: seq<PaymentRow>, subscriptions: seq<SubscriptionRow>)

  /** Why a request ended in a 500: the body did not parse, the store is not
      configured, `.event` was read from a null body, `.id` was read from a
      missing payment, or a store write failed. */
  datatype Failure = UnparseableBody | MissingConfiguration | NullBody | MissingPayment | StoreError

  datatype Reply = MethodNotAllowed | Processed | InternalError(failure: Failure)

  function HttpStatus(r: Reply): int {
    match r
    case MethodNotAllowed => 405
    case Processed => 200
    case InternalError(_) => 500
  }

  /** Tables after some store calls, and the error that ended the run, if any. */
  datatype Run = Run(tables: Tables, calls: nat, failure: Option<Failure>)

  // ---------------------------------------------------------------------------
  // Lookups by external id
  // ---------------------------------------------------------------------------

  function PaymentsWithId(rows: seq<PaymentRow>, id: string): (m: seq<PaymentRow>)
    ensures |m| <= |rows|
    ensures forall k :: 0 <= k < |m| ==> m[k].fields.externalId == id
    ensures forall i :: 0 <= i < |rows| && rows[i].fields.externalId == id ==> rows[i] in m
  {
    if rows == [] then []
    else PaymentsWithId(rows[..|rows| - 1], id)
         + (if rows[|rows| - 1].fields.externalId == id then [rows[|rows| - 1]] else [])
  }

  function SubscriptionsWithId(rows: seq<SubscriptionRow>, id: string): (m: seq<SubscriptionRow>)
    ensures |m| <= |rows|
    ensures forall k :: 0 <= k < |m| ==> m[k].externalId == id
    ensures forall i :: 0 <= i < |rows| && rows[i].externalId == id ==> rows[i] in m
  {
    if rows == [] then []
    else SubscriptionsWithId(rows[..|rows| - 1], id)
         + (if rows[|rows| - 1].externalId == id then [rows[|rows| - 1]] else [])
  }

  /** No two payment rows share an external id. */
  predicate UniquePayments(rows: seq<PaymentRow>) {
    forall i, j :: 0 <= i < j < |rows| ==> rows[i].fields.externalId != rows[j].fields.externalId
  }

  // ---------------------------------------------------------------------------
  // processPaymentEvent
  // ---------------------------------------------------------------------------

  /** The `paymentData` object: optional members become null unless truthy. */
  function FieldsOf(event: string, p: Payment, now: string): PaymentFields {
    PaymentFields(
      p.id, p.customer, p.value, p.netValue, p.billingType, p.status, p.dueDate,
      TextOrNull(p.paymentDate), TextOrNull(p.clientPaymentDate), OrNull(p.invoiceUrl),
      OrNull(p.invoiceNumber), OrNull(p.externalReference), p.deleted,
      OrNull(p.subscription), event, now)
  }

  /** `.update(paymentData).eq('external_id', id)`: created_at and the row's
      place are kept, every written column is overwritten. */
  function UpdatePayments(rows: seq<PaymentRow>, id: string, f: PaymentFields): (r: seq<PaymentRow>)
    ensures |r| == |rows|
    ensures forall i :: 0 <= i < |rows| ==>
      r[i] == (if rows[i].fields.externalId == id then PaymentRow(f, rows[i].createdAt) else rows[i])
  {
    seq(|rows|, i requires 0 <= i < |rows| =>
      if rows[i].fields.externalId == id then rows[i].(fields := f) else rows[i])
  }

  /** Lookup (call n, error discarded), then update or insert (call n+1). */
  function UpsertPayment(t: Tables, n: nat, event: string, p: Payment, now: string, faults: set<nat>): (r: Run)
    ensures r.calls == n + 2
    // only the write can fail, and a failed write changes nothing
    ensures r.failure.Some? <==> n + 1 in faults
    ensures r.failure.Some? ==> r.failure == Some(StoreError) && r.tables == t
    ensures r.tables.subscriptions == t.subscriptions
    // a successful write leaves at least one row for the payment, adding at most one row
    ensures r.failure.None? ==>
      && |PaymentsWithId(r.tables.payments, p.id)| >= 1
      && |t.payments| <= |r.tables.payments| <= |t.payments| + 1
  {
    var found := n !in faults && |PaymentsWithId(t.payments, p.id)| == 1;
    var f := FieldsOf(event, p, now);
    if n + 1 in faults then Run(t, n + 2, Some(StoreError))
    else if found then
      UpdateKeepsMatches(t.payments, p.id, f, p.id);
      Run(t.(payments := UpdatePayments(t.payments, p.id, f)), n + 2, None)
    else
      PaymentsWithIdAppend(t.payments, PaymentRow(f, now), p.id);
      Run(t.(payments := t.payments + [PaymentRow(f, now)]), n + 2, None)
  }

  // ---------------------------------------------------------------------------
  // updateSubscriptionFromPayment
  // ---------------------------------------------------------------------------

  /** The subscription status a payment event leads to. */
  function NextSubscriptionStatus(event: string, prior: string): string {
    if event == "PAYMENT_RECEIVED" || event == "PAYMENT_CONFIRMED" then "active"
    else if event == "PAYMENT_OVERDUE" then "overdue"
    else prior
  }

  /** `paymentDate || clientPaymentDate`.  When it is undefined the key
      drops out of the update object (JSON has no undefined) and the column
      is kept; when it is null the column is set to null. */
  function LastPaymentDate(p: Payment): JsonString {
    TextOr(p.paymentDate, p.clientPaymentDate)
  }

  /** The column value an update writes for a member, or the old one when
      the member is undefined and so not sent. */
  function Written(v: JsonString, prior: Option<string>): Option<string> {
    match v
    case Undefined => prior
    case Null => None
    case Text(s) => Some(s)
  }

  function UpdateSubscriptions(rows: seq<SubscriptionRow>, id: string, status: string,
                               last: JsonString, now: string): (r: seq<SubscriptionRow>)
    ensures |r| == |rows|
  {
    seq(|rows|, i requires 0 <= i < |rows| =>
      if rows[i].externalId != id then rows[i]
      else rows[i].(status := status,
                    lastPaymentDate := Written(last, rows[i].lastPaymentDate),
                    updatedAt := now))
  }

  /** Lookup (call n, error discarded: no row), then update (call n+1). */
  function Cascade(t: Tables, n: nat, event: string, p: Payment, now: string, faults: set<nat>): (r: Run)
    ensures r.tables.payments == t.payments
    ensures |r.tables.subscriptions| == |t.subscriptions|
    // the update is the only call that can fail, and a failed update changes nothing
    ensures r.failure.Some? ==> r.failure == Some(StoreError) && r.tables == t && n + 1 in faults
    ensures !Present(p.subscription) ==> r == Run(t, n, None)
    // the table changes only when exactly one row has the subscription's id
    ensures r.tables != t ==> Present(p.subscription) && |SubscriptionsWithId(t.subscriptions, p.subscription.value)| == 1
    // and conversely a faulted update of a row the lookup found is reported
    ensures (Present(p.subscription) && n !in faults && n + 1 in faults
             && |SubscriptionsWithId(t.subscriptions, p.subscription.value)| == 1) ==> r.failure == Some(StoreError)
  {
    if !Present(p.subscription) then Run(t, n, None)
    else
      var sid := p.subscription.value;
      var matches := SubscriptionsWithId(t.subscriptions, sid);
      if n in faults || |matches| != 1 then Run(t, n + 1, None)
      else if n + 1 in faults then Run(t, n + 2, Some(StoreError))
      else
        var status := NextSubscriptionStatus(event, matches[0].status);
        Run(t.(subscriptions := UpdateSubscriptions(t.subscriptions, sid, status, LastPaymentDate(p), now)), n + 2, None)
  }

  function ProcessPaymentEvent(t: Tables, event: string, p: Payment, now: string, faults: set<nat>): (r: Run)
    ensures r.failure.Some? ==> r.failure == Some(StoreError)
    // a failed payment write stops the event before the cascade
    ensures 1 in faults ==> r == Run(t, 2, Some(StoreError))
    // without a subscription the cascade does nothing
    ensures !Present(p.subscription) ==> r == UpsertPayment(t, 0, event, p, now, faults)
    // the payment row is in place whenever the payment write went through
    ensures 1 !in faults ==> |PaymentsWithId(r.tables.payments, p.id)| >= 1
    // a subscription payment whose payment write went through goes on to the
    // cascade, which starts at call 2
    ensures 1 !in faults && Present(p.subscription) ==>
      r == Cascade(UpsertPayment(t, 0, event, p, now, faults).tables, 2, event, p, now, faults)
  {
    var up := UpsertPayment(t, 0, event, p, now, faults);
    if up.failure.Some? then up
    else Cascade(up.tables, up.calls, event, p, now, faults)
  }

  // ---------------------------------------------------------------------------
  // The request handler
  // ---------------------------------------------------------------------------

  /** The events that reach `processPaymentEvent`. */
  const PaymentEvents: set<string> := {
    "PAYMENT_CREATED", "PAYMENT_UPDATED", "PAYMENT_CONFIRMED",
    "PAYMENT_RECEIVED", "PAYMENT_OVERDUE", "PAYMENT_DELETED"
  }

  datatype Response = Response(reply: Reply, tables: Tables)

  predicate IsPaymentEvent(n: Notification) {
    n.event.Some? && n.event.value in PaymentEvents
  }

  /** `configured` is whether both store environment variables are non-empty. */
  function Handle(req: Request, t: Tables, configured: bool, now: string, faults: set<nat>): (r: Response)
    ensures req.httpMethod != "POST" <==> r.reply == MethodNotAllowed
    ensures req.httpMethod != "POST" ==> r.tables == t
    // the body is parsed before the configuration is checked, and `.event` is
    // read after it
    ensures req.httpMethod == "POST" && req.body.Unparseable? ==> r == Response(InternalError(UnparseableBody), t)
    ensures req.httpMethod == "POST" && !req.body.Unparseable? && !configured ==>
      r == Response(InternalError(MissingConfiguration), t)
    ensures req.httpMethod == "POST" && req.body.JsonNull? && configured ==> r == Response(InternalError(NullBody), t)
    ensures req.httpMethod == "POST" && req.body.Parsed? && configured && !IsPaymentEvent(req.body.notification) ==>
      r == Response(Processed, t)
    ensures r.reply.InternalError? && r.reply.failure != StoreError ==> r.tables == t
    ensures r.tables != t ==> req.httpMethod == "POST" && req.body.Parsed? && IsPaymentEvent(req.body.notification)
    // a payment event with a payment object reaches the upsert: with no store
    // errors it is answered 200 and its payment row is in the table
    ensures req.httpMethod == "POST" && req.body.Parsed? && configured && IsPaymentEvent(req.body.notification)
            && req.body.notification.payment.Some? && faults == {} ==>
      && r.reply == Processed
      && |PaymentsWithId(r.tables.payments, req.body.notification.payment.value.id)| >= 1
    // and from a table with unique ids, that row is the only one and ids stay unique
    ensures req.httpMethod == "POST" && req.body.Parsed? && configured && IsPaymentEvent(req.body.notification)
            && req.body.notification.payment.Some? && faults == {} && UniquePayments(t.payments) ==>
      && |PaymentsWithId(r.tables.payments, req.body.notification.payment.value.id)| == 1
      && UniquePayments(r.tables.payments)
  {
    if req.httpMethod != "POST" then Response(MethodNotAllowed, t)
    else if req.body.Unparseable? then Response(InternalError(UnparseableBody), t)
    else if !configured then Response(InternalError(MissingConfiguration), t)
    else if req.body.JsonNull? then Response(InternalError(NullBody), t)
    else
      var n := req.body.notification;
      if !IsPaymentEvent(n) then Response(Processed, t)
      else if n.payment.None? then Response(InternalError(MissingPayment), t)
      else
        var run := ProcessPaymentEvent(t, n.event.value, n.payment.value, now, faults);
        assert UniquePayments(t.payments) && faults == {} ==>
          var up := UpsertPayment(t, 0, n.event.value, n.payment.value, now, faults).tables.payments;
          |PaymentsWithId(up, n.payment.value.id)| == 1 && UniquePayments(up) by {
          if UniquePayments(t.payments) && faults == {} {
            UpsertLeavesOneRow(t, n.event.value, n.payment.value, now, faults);
          }
        }
        if run.failure.Some? then Response(InternalError(run.failure.value), run.tables)
        else Response(Processed, run.tables)
  }

  // ---------------------------------------------------------------------------
  // Properties of the upsert
  // ---------------------------------------------------------------------------

  lemma {:induction false} PaymentsWithIdAppend(rows: seq<PaymentRow>, row: PaymentRow, id: string)
    ensures PaymentsWithId(rows + [row], id) ==
      PaymentsWithId(rows, id) + (if row.fields.externalId == id then [row] else [])
  {
    assert (rows + [row])[..|rows + [row]| - 1] == rows;
  }

  /** The rows matching an id are empty exactly when no row has that id. */
  lemma {:induction false} PaymentsWithIdEmpty(rows: seq<PaymentRow>, id: string)
    ensures |PaymentsWithId(rows, id)| == 0 <==> forall i :: 0 <= i < |rows| ==> rows[i].fields.externalId != id
  {
    if rows != [] {
      var init := rows[..|rows| - 1];
      PaymentsWithIdEmpty(init, id);
      assert forall i :: 0 <= i < |init| ==> init[i] == rows[i];
    }
  }

  /** Under unique ids, at most one row matches any id. */
  lemma {:induction false} UniqueAtMostOne(rows: seq<PaymentRow>, id: string)
    requires UniquePayments(rows)
    ensures |PaymentsWithId(rows, id)| <= 1
  {
    if rows != [] {
      var init := rows[..|rows| - 1];
      var last := rows[|rows| - 1];
      assert forall i :: 0 <= i < |init| ==> init[i] == rows[i];
      UniqueAtMostOne(init, id);
      if last.fields.externalId == id {
        PaymentsWithIdEmpty(init, id);
      }
    }
  }

  /** Updating rows in place keeps the number of rows per id, because the
      new columns carry the same external id. */
  lemma {:induction false} UpdateKeepsMatches(rows: seq<PaymentRow>, id: string, f: PaymentFields, other: string)
    requires f.externalId == id
    ensures |PaymentsWithId(UpdatePayments(rows, id, f), other)| == |PaymentsWithId(rows, other)|
  {
    if rows != [] {
      var init := rows[..|rows| - 1];
      var r := UpdatePayments(rows, id, f);
      assert r[..|r| - 1] == UpdatePayments(init, id, f);
      UpdateKeepsMatches(init, id, f, other);
    }
  }

  /** A successful upsert over unique ids leaves exactly one row for the
      payment's id, and ids stay unique. */
  lemma UpsertLeavesOneRow(t: Tables, event: string, p: Payment, now: string, faults: set<nat>)
    requires UniquePayments(t.payments)
    requires 0 !in faults && 1 !in faults
    ensures var r := UpsertPayment(t, 0, event, p, now, faults);
      && r.failure.None?
      && |PaymentsWithId(r.tables.payments, p.id)| == 1
      && UniquePayments(r.tables.payments)
  {
    var rows := t.payments;
    var f := FieldsOf(event, p, now);
    UniqueAtMostOne(rows, p.id);
    if |PaymentsWithId(rows, p.id)| == 1 {
      UpdateKeepsMatches(rows, p.id, f, p.id);
      var r := UpdatePayments(rows, p.id, f);
      forall i, j | 0 <= i < j < |r|
        ensures r[i].fields.externalId != r[j].fields.externalId
      {
        assert r[i].fields.externalId == rows[i].fields.externalId;
        assert r[j].fields.externalId == rows[j].fields.externalId;
      }
    } else {
      PaymentsWithIdEmpty(rows, p.id);
      PaymentsWithIdAppend(rows, PaymentRow(f, now), p.id);
    }
  }

  /** When the row already exists the upsert updates it in place: same
      position, same created_at, every written column replaced; every
      other row is left alone and no row is added. */
  lemma UpsertUpdatesInPlace(t: Tables, event: string, p: Payment, now: string, faults: set<nat>, i: nat)
    requires UniquePayments(t.payments)
    requires 0 !in faults && 1 !in faults
    requires i < |t.payments| && t.payments[i].fields.externalId == p.id
    ensures var r := UpsertPayment(t, 0, event, p, now, faults).tables;
      && |r.payments| == |t.payments|
      && r.payments[i] == PaymentRow(FieldsOf(event, p, now), t.payments[i].createdAt)
      && (forall j :: 0 <= j < |t.payments| && j != i ==> r.payments[j] == t.payments[j])
      && r.subscriptions == t.subscriptions
  {
    var rows := t.payments;
    UniqueAtMostOne(rows, p.id);
    PaymentsWithIdEmpty(rows, p.id);
  }

  /** When no row has the id, the upsert appends one, stamped with created_at. */
  lemma UpsertInsertsWhenAbsent(t: Tables, event: string, p: Payment, now: string, faults: set<nat>)
    requires 1 !in faults
    requires forall i :: 0 <= i < |t.payments| ==> t.payments[i].fields.externalId != p.id
    ensures UpsertPayment(t, 0, event, p, now, faults).tables ==
      t.(payments := t.payments + [PaymentRow(FieldsOf(event, p, now), now)])
  {
    PaymentsWithIdEmpty(t.payments, p.id);
  }

  /** Optional members absent (or empty) in the payload are stored as null,
      and present ones are stored unchanged. */
  lemma OptionalFieldsStoredAsNull(event: string, p: Payment, now: string)
    ensures var f := FieldsOf(event, p, now);
      && (f.paymentDate.None? <==> !TruthyText(p.paymentDate))
      && (f.clientPaymentDate.None? <==> !TruthyText(p.clientPaymentDate))
      && (f.invoiceUrl.None? <==> !Present(p.invoiceUrl))
      && (f.invoiceNumber.None? <==> !Present(p.invoiceNumber))
      && (f.externalReference.None? <==> !Present(p.externalReference))
      && (f.subscriptionId.None? <==> !Present(p.subscription))
      && (f.paymentDate.Some? ==> p.paymentDate == Text(f.paymentDate.value))
      && (f.clientPaymentDate.Some? ==> p.clientPaymentDate == Text(f.clientPaymentDate.value))
      && (f.invoiceUrl.Some? ==> f.invoiceUrl == p.invoiceUrl)
      && (f.invoiceNumber.Some? ==> f.invoiceNumber == p.invoiceNumber)
      && (f.externalReference.Some? ==> f.externalReference == p.externalReference)
      && (f.subscriptionId.Some? ==> f.subscriptionId == p.subscription)
  {
  }

  /** A lookup error is discarded, so a payment whose row exists gets a
      second row when its lookup fails and its insert succeeds. */
  lemma FailedLookupDuplicates(t: Tables, event: string, p: Payment, now: string)
    requires exists i :: 0 <= i < |t.payments| && t.payments[i].fields.externalId == p.id
    ensures |PaymentsWithId(UpsertPayment(t, 0, event, p, now, {0}).tables.payments, p.id)| >= 2
  {
    PaymentsWithIdEmpty(t.payments, p.id);
    PaymentsWithIdAppend(t.payments, PaymentRow(FieldsOf(event, p, now), now), p.id);
  }

  // ---------------------------------------------------------------------------
  // Properties of the cascade
  // ---------------------------------------------------------------------------

  /** Received and confirmed payments make the subscription active, overdue
      ones make it overdue, and every other event keeps its status. */
  lemma NextStatusTable(event: string, prior: string)
    ensures NextSubscriptionStatus(event, prior) == "active" <==>
      event in {"PAYMENT_RECEIVED", "PAYMENT_CONFIRMED"} || (prior == "active" && event != "PAYMENT_OVERDUE")
    ensures NextSubscriptionStatus(event, prior) == "overdue" <==>
      event == "PAYMENT_OVERDUE" || (prior == "overdue" && event !in {"PAYMENT_RECEIVED", "PAYMENT_CONFIRMED"})
    ensures event !in {"PAYMENT_RECEIVED", "PAYMENT_CONFIRMED", "PAYMENT_OVERDUE"} ==>
      NextSubscriptionStatus(event, prior) == prior
    ensures NextSubscriptionStatus(event, NextSubscriptionStatus(event, prior)) == NextSubscriptionStatus(event, prior)
  {
  }

  lemma {:induction false} SubscriptionsWithIdEmpty(rows: seq<SubscriptionRow>, id: string)
    ensures |SubscriptionsWithId(rows, id)| == 0 <==> forall i :: 0 <= i < |rows| ==> rows[i].externalId != id
  {
    if rows != [] {
      var init := rows[..|rows| - 1];
      SubscriptionsWithIdEmpty(init, id);
      assert forall i :: 0 <= i < |init| ==> init[i] == rows[i];
    }
  }

  /** The cascade writes nothing when the payment has no subscription or no
      subscriptions row has its id; it never touches payments; and it only
      ever changes rows whose external id is the payment's subscription. */
  lemma CascadeFrame(t: Tables, n: nat, event: string, p: Payment, now: string, faults: set<nat>)
    ensures var r := Cascade(t, n, event, p, now, faults);
      && r.tables.payments == t.payments
      && |r.tables.subscriptions| == |t.subscriptions|
      && (forall i :: 0 <= i < |t.subscriptions| && (!Present(p.subscription) || t.subscriptions[i].externalId != p.subscription.value) ==>
            r.tables.subscriptions[i] == t.subscriptions[i])
      && (!Present(p.subscription) ==> r.tables == t)
      && (Present(p.subscription) && (forall i :: 0 <= i < |t.subscriptions| ==> t.subscriptions[i].externalId != p.subscription.value) ==> r.tables == t)
  {
    if Present(p.subscription) {
      SubscriptionsWithIdEmpty(t.subscriptions, p.subscription.value);
    }
  }

  /** When exactly one subscriptions row has the id and both calls succeed,
      that row takes the status the event leads to; a received or
      confirmed payment makes it active whatever it was before. */
  lemma CascadeSetsStatus(t: Tables, n: nat, event: string, p: Payment, now: string, faults: set<nat>, i: nat)
    requires Present(p.subscription)
    requires |SubscriptionsWithId(t.subscriptions, p.subscription.value)| == 1
    requires n !in faults && n + 1 !in faults
    requires i < |t.subscriptions| && t.subscriptions[i].externalId == p.subscription.value
    ensures var r := Cascade(t, n, event, p, now, faults);
      && r.failure.None?
      && r.tables.subscriptions[i].status == NextSubscriptionStatus(event, t.subscriptions[i].status)
      && r.tables.subscriptions[i].updatedAt == now
      && (event in {"PAYMENT_RECEIVED", "PAYMENT_CONFIRMED"} ==> r.tables.subscriptions[i].status == "active")
      && (event == "PAYMENT_OVERDUE" ==> r.tables.subscriptions[i].status == "overdue")
  {
    SubscriptionMatchIsTheRow(t.subscriptions, p.subscription.value, i);
  }

  /** With a single match, the matched row is the row at any index holding the id. */
  lemma {:induction false} SubscriptionMatchIsTheRow(rows: seq<SubscriptionRow>, id: string, i: nat)
    requires |SubscriptionsWithId(rows, id)| == 1
    requires i < |rows| && rows[i].externalId == id
    ensures SubscriptionsWithId(rows, id)[0] == rows[i]
  {
    var init := rows[..|rows| - 1];
    assert forall k :: 0 <= k < |init| ==> init[k] == rows[k];
    SubscriptionsWithIdEmpty(init, id);
    if i < |rows| - 1 {
      assert init[i].externalId == id;
      SubscriptionMatchIsTheRow(init, id, i);
    }
  }

  /** The cascade writes `paymentDate || clientPaymentDate` into
      last_payment_date: the payment date when truthy, otherwise the client
      payment date as it came, so that a null clears the column and only an
      undefined one (a key the payload lacks) keeps the old value. */
  lemma CascadeWritesLastPaymentDate(t: Tables, n: nat, event: string, p: Payment, now: string, faults: set<nat>, i: nat)
    requires Present(p.subscription)
    requires |SubscriptionsWithId(t.subscriptions, p.subscription.value)| == 1
    requires n !in faults && n + 1 !in faults
    requires i < |t.subscriptions| && t.subscriptions[i].externalId == p.subscription.value
    ensures var row := Cascade(t, n, event, p, now, faults).tables.subscriptions[i];
      && (TruthyText(p.paymentDate) ==> row.lastPaymentDate == Some(p.paymentDate.text))
      && (!TruthyText(p.paymentDate) && p.clientPaymentDate.Text? ==> row.lastPaymentDate == Some(p.clientPaymentDate.text))
      && (!TruthyText(p.paymentDate) && p.clientPaymentDate.Null? ==> row.lastPaymentDate.None?)
      && (!TruthyText(p.paymentDate) && p.clientPaymentDate.Undefined? ==> row.lastPaymentDate == t.subscriptions[i].lastPaymentDate)
  {
  }

  /** A failing write is a 500 carrying the store's error. */
  lemma StoreErrorsPropagate(t: Tables, n: Notification, now: string, faults: set<nat>)
    requires IsPaymentEvent(n) && n.payment.Some?
    requires 1 in faults
    ensures Handle(Request("POST", Parsed(n)), t, true, now, faults) == Response(InternalError(StoreError), t)
  {
  }

  /** End to end: a payment event for a subscription that has exactly one
      row, with the payment write and both subscription calls succeeding, is
      a 200 that moves that row to the event's next status: "active" for a
      received or confirmed payment, "overdue" for an overdue one. */
  lemma SubscriptionPaymentSetsStatus(t: Tables, n: Notification, now: string, faults: set<nat>, i: nat)
    requires IsPaymentEvent(n) && n.payment.Some? && Present(n.payment.value.subscription)
    requires 1 !in faults && 2 !in faults && 3 !in faults
    requires |SubscriptionsWithId(t.subscriptions, n.payment.value.subscription.value)| == 1
    requires i < |t.subscriptions| && t.subscriptions[i].externalId == n.payment.value.subscription.value
    ensures var r := Handle(Request("POST", Parsed(n)), t, true, now, faults);
      && r.reply == Processed
      && i < |r.tables.subscriptions|
      && r.tables.subscriptions[i].status == NextSubscriptionStatus(n.event.value, t.subscriptions[i].status)
      && (n.event.value in {"PAYMENT_RECEIVED", "PAYMENT_CONFIRMED"} ==> r.tables.subscriptions[i].status == "active")
      && (n.event.value == "PAYMENT_OVERDUE" ==> r.tables.subscriptions[i].status == "overdue")
  {
    var up := UpsertPayment(t, 0, n.event.value, n.payment.value, now, faults);
    CascadeSetsStatus(up.tables, 2, n.event.value, n.payment.value, now, faults, i);
  }

  /** A failing subscription update is a 500 too, although the payment row
      has already been written by then: the upsert is not rolled back. */
  lemma CascadeErrorsPropagate(t: Tables, n: Notification, now: string, faults: set<nat>)
    requires IsPaymentEvent(n) && n.payment.Some?
    requires Present(n.payment.value.subscription)
    // the payment write (call 1) and the subscription lookup (call 2) succeed,
    // the subscription update (call 3) fails
    requires 1 !in faults && 2 !in faults && 3 in faults
    requires var up := UpsertPayment(t, 0, n.event.value, n.payment.value, now, faults);
      |SubscriptionsWithId(up.tables.subscriptions, n.payment.value.subscription.value)| == 1
    ensures var up := UpsertPayment(t, 0, n.event.value, n.payment.value, now, faults);
      && Handle(Request("POST", Parsed(n)), t, true, now, faults) == Response(InternalError(StoreError), up.tables)
      && |PaymentsWithId(up.tables.payments, n.payment.value.id)| >= 1
  {
    var p := n.payment.value;
    var f := FieldsOf(n.event.value, p, now);
    if |PaymentsWithId(t.payments, p.id)| == 1 {
      UpdateKeepsMatches(t.payments, p.id, f, p.id);
    } else {
      PaymentsWithIdAppend(t.payments, PaymentRow(f, now), p.id);
    }
  }

  // ---------------------------------------------------------------------------
  // Replaying a notification
  // ---------------------------------------------------------------------------

  /** Delivering the same payment notification twice, with no store errors
      and the same clock, leaves the tables as one delivery left them. */
  lemma ReplayIsIdempotent(t: Tables, n: Notification, now: string)
    requires UniquePayments(t.payments)
    ensures var once := Handle(Request("POST", Parsed(n)), t, true, now, {});
      Handle(Request("POST", Parsed(n)), once.tables, true, now, {}) == once
  {
    if IsPaymentEvent(n) && n.payment.Some? {
      var e := n.event.value;
      var p := n.payment.value;
      var f := FieldsOf(e, p, now);
      var up := UpsertPayment(t, 0, e, p, now, {});
      UpsertLeavesOneRow(t, e, p, now, {});
      var up2 := UpsertPayment(up.tables, 0, e, p, now, {});
      UpsertTwice(t, e, p, now);
      assert up2 == up;
      CascadeTwice(up.tables, e, p, now);
    }
  }

  lemma UpsertTwice(t: Tables, event: string, p: Payment, now: string)
    requires UniquePayments(t.payments)
    ensures var up := UpsertPayment(t, 0, event, p, now, {});
      UpsertPayment(up.tables, 0, event, p, now, {}) == up
  {
    var f := FieldsOf(event, p, now);
    var up := UpsertPayment(t, 0, event, p, now, {});
    UpsertLeavesOneRow(t, event, p, now, {});
    var rows := up.tables.payments;
    var again := UpdatePayments(rows, p.id, f);
    UniqueAtMostOne(t.payments, p.id);
    if |PaymentsWithId(t.payments, p.id)| == 1 {
      assert rows == UpdatePayments(t.payments, p.id, f);
      forall i | 0 <= i < |rows| ensures again[i] == rows[i] {
        if rows[i].fields.externalId == p.id {
          assert t.payments[i].fields.externalId == p.id;
        }
      }
    } else {
      PaymentsWithIdEmpty(t.payments, p.id);
      assert rows == t.payments + [PaymentRow(f, now)];
      forall i | 0 <= i < |rows| ensures again[i] == rows[i] {
        if i < |t.payments| {
          assert rows[i] == t.payments[i];
        }
      }
    }
    assert again == rows;
  }

  lemma CascadeTwice(t: Tables, event: string, p: Payment, now: string)
    ensures var c := Cascade(t, 2, event, p, now, {});
      Cascade(c.tables, 2, event, p, now, {}) == c
  {
    if Present(p.subscription) {
      var sid := p.subscription.value;
      var rows := t.subscriptions;
      var matches := SubscriptionsWithId(rows, sid);
      if |matches| == 1 {
        var status := NextSubscriptionStatus(event, matches[0].status);
        var rows2 := UpdateSubscriptions(rows, sid, status, LastPaymentDate(p), now);
        SubscriptionsKeepIds(rows, sid, status, LastPaymentDate(p), now);
        var m2 := SubscriptionsWithId(rows2, sid);
        assert m2[0].status == status by {
          var i := SubscriptionIndex(rows, sid);
          SubscriptionMatchIsTheRow(rows, sid, i);
          SubscriptionMatchIsTheRow(rows2, sid, i);
        }
        var rows3 := UpdateSubscriptions(rows2, sid, NextSubscriptionStatus(event, status), LastPaymentDate(p), now);
        assert rows3 == rows2;
      }
    }
  }

  /** The update leaves every external id where it was. */
  lemma {:induction false} SubscriptionsKeepIds(rows: seq<SubscriptionRow>, id: string, status: string, last: JsonString, now: string)
    ensures var r := UpdateSubscriptions(rows, id, status, last, now);
      |SubscriptionsWithId(r, id)| == |SubscriptionsWithId(rows, id)|
  {
    if rows != [] {
      var r := UpdateSubscriptions(rows, id, status, last, now);
      var init := rows[..|rows| - 1];
      assert r[..|r| - 1] == UpdateSubscriptions(init, id, status, last, now);
      SubscriptionsKeepIds(init, id, status, last, now);
    }
  }

  /** Some index holding the id, given that some row matches. */
  ghost function SubscriptionIndex(rows: seq<SubscriptionRow>, id: string): (i: nat)
    requires |SubscriptionsWithId(rows, id)| > 0
    ensures i < |rows| && rows[i].externalId == id
  {
    SubscriptionsWithIdEmpty(rows, id);
    var i :| 0 <= i < |rows| && rows[i].externalId == id;
    i
  }
}

=== FILE: gateway_requests.dfy ===
/** Request shaping of the three gateway passthrough routes of the Express
    server: POST /api/create-customer, /api/create-payment and
    /api/create-subscription.  Each route checks its required fields, builds
    the body it would send to the gateway, and either forwards it or answers
    with a simulated object, depending on the environment.  The gateway call
    itself, random identifiers and the clock are not modelled: today's date
    and the random URL suffix are parameters. */
module GatewayRequests {
  import opened JsValues

  /** Which of NODE_ENV and ASAAS_API_KEY are set, and to what. */
  datatype Env = Env(nodeEnv: Option<string>, apiKey: Option<string>)

  predicate IsProduction(env: Env) { env.nodeEnv == Some("production") }

  predicate IsDevelopment(env: Env) { env.nodeEnv == Some("development") }

  // ---------------------------------------------------------------------------
  // CPF/CNPJ normalisation: `cpfCnpj.replace(/\D/g, '')`
  // ---------------------------------------------------------------------------

  /** `\d` in a JavaScript regular expression: the ASCII digits only. */
  predicate IsDigit(c: char) { '0' <= c <= '9' }

  predicate AllDigits(s: string) {
    forall i :: 0 <= i < |s| ==> IsDigit(s[i])
  }

  function DigitsOnly(s: string): (r: string)
    ensures AllDigits(r)
    ensures |r| <= |s|
  {
    if s == [] then []
    else if IsDigit(s[0]) then [s[0]] + DigitsOnly(s[1..])
    else DigitsOnly(s[1..])
  }

  /** A string that is already all digits is left as it is. */
  lemma {:induction false} DigitsOnlyKeepsDigitStrings(s: string)
    requires AllDigits(s)
    ensures DigitsOnly(s) == s
  {
    if s != [] {
      DigitsOnlyKeepsDigitStrings(s[1..]);
    }
  }

  /** Stripping distributes over concatenation, so it keeps every digit in
      its original order and drops everything else. */
  lemma {:induction false} DigitsOnlyConcat(a: string, b: string)
    ensures DigitsOnly(a + b) == DigitsOnly(a) + DigitsOnly(b)
  {
    if a == [] {
      assert a + b == b;
    } else {
      assert (a + b)[1..] == a[1..] + b;
      DigitsOnlyConcat(a[1..], b);
    }
  }

  /** Stripping twice is stripping once. */
  lemma DigitsOnlyIdempotent(s: string)
    ensures DigitsOnly(DigitsOnly(s)) == DigitsOnly(s)
  {
    DigitsOnlyKeepsDigitStrings(DigitsOnly(s));
  }

  // ---------------------------------------------------------------------------
  // POST /api/create-customer
  // ---------------------------------------------------------------------------

  datatype Address = Address(
    street: Option<string>, number: Option<string>, complement: Option<string>,
    neighborhood: Option<string>, postalCode: Option<string>)

  datatype CustomerRequest = CustomerRequest(
    name: Option<string>, email: Option<string>, cpfCnpj: Option<string>,
    phone: Option<string>, address: Option<Address>, userId: Option<string>)

  /** The body posted to the gateway's /customers endpoint. */
  datatype CustomerBody = CustomerBody(
    name: string, email: string, cpfCnpj: string, phone: Option<string>,
    address: Option<string>, addressNumber: Option<string>, complement: Option<string>,
    province: Option<string>, postalCode: Option<string>,
    externalReference: Option<string>, notificationDisabled: bool)

  /** `address?.field`: absent when the address object is. */
  function AddressField(a: Option<Address>, f: Address -> Option<string>): Option<string> {
    if a.Some? then f(a.value) else None
  }

  datatype CustomerRoute =
    | CustomerRejected
    | CustomerForwarded(body: CustomerBody)
    | CustomerSimulated(name: string, email: string, cpfCnpj: string, externalReference: Option<string>)

  /** The route's decision: reject, post to the gateway, or simulate.  The
      simulated customer echoes the cpfCnpj as received. */
  function CreateCustomer(req: CustomerRequest, env: Env): (r: CustomerRoute)
    ensures r.CustomerRejected? <==> !(Present(req.name) && Present(req.email) && Present(req.cpfCnpj))
    ensures r.CustomerForwarded? ==>
      && (IsProduction(env) || Present(env.apiKey))
      && AllDigits(r.body.cpfCnpj)
      && r.body.cpfCnpj == DigitsOnly(req.cpfCnpj.value)
      && Some(r.body.name) == req.name && Some(r.body.email) == req.email
      && r.body.externalReference == req.userId
      && !r.body.notificationDisabled
    ensures r.CustomerSimulated? ==> !IsProduction(env) && !Present(env.apiKey) && Some(r.cpfCnpj) == req.cpfCnpj
  {
    if !(Present(req.name) && Present(req.email) && Present(req.cpfCnpj)) then CustomerRejected
    else if IsProduction(env) || Present(env.apiKey) then
      CustomerForwarded(CustomerBody(
        req.name.value, req.email.value, DigitsOnly(req.cpfCnpj.value), req.phone,
        AddressField(req.address, (a: Address) => a.street), AddressField(req.address, (a: Address) => a.number),
        AddressField(req.address, (a: Address) => a.complement), AddressField(req.address, (a: Address) => a.neighborhood),
        AddressField(req.address, (a: Address) => a.postalCode),
        req.userId, false))
    else CustomerSimulated(req.name.value, req.email.value, req.cpfCnpj.value, req.userId)
  }

  // ---------------------------------------------------------------------------
  // POST /api/create-payment
  // ---------------------------------------------------------------------------

  /** The zero discount, interest and fine blocks the PIX and BOLETO bodies carry. */
  datatype ChargeTerms = ChargeTerms(
    discountValue: int, discountDueDateLimitDays: int, interestValue: int, fineValue: int)

  const ZeroTerms := ChargeTerms(0, 0, 0, 0)

  const DefaultPaymentDescription := "Pagamento MedMoney"
  const DefaultSubscriptionDescription := "Assinatura MedMoney"
  const SandboxInvoicePrefix := "https://sandbox.asaas.com/i/"

  datatype PaymentRequest = PaymentRequest(
    customerId: Option<string>, value: Option<real>, billingType: Option<string>,
    description: Option<string>, dueDate: Option<string>, userId: Option<string>)

  /** The body posted to the gateway's /payments endpoint; `terms` and
      `postalService` stand for keys that only a PIX body has. */
  datatype PaymentBody = PaymentBody(
    customer: string, billingType: string, value: real, dueDate: string,
    description: string, externalReference: Option<string>,
    terms: Option<ChargeTerms>, postalService: Option<bool>)

  predicate PaymentRequestComplete(req: PaymentRequest) {
    Present(req.customerId) && Truthy(req.value) && Present(req.billingType)
  }

  function PaymentBodyFor(req: PaymentRequest, today: string): (b: PaymentBody)
    requires PaymentRequestComplete(req)
    ensures Some(b.customer) == req.customerId && Some(b.value) == req.value && Some(b.billingType) == req.billingType
    // a falsy due date or description is replaced by today or the default
    ensures b.dueDate == (if Present(req.dueDate) then req.dueDate.value else today)
    ensures b.description == (if Present(req.description) then req.description.value else DefaultPaymentDescription)
    // externalReference is the user id when truthy, and null otherwise
    ensures b.externalReference.Some? <==> Present(req.userId)
    ensures b.externalReference.Some? ==> b.externalReference == req.userId
    // the zero terms and postalService exist exactly for PIX
    ensures b.terms.Some? <==> req.billingType == Some("PIX")
    ensures b.postalService.Some? <==> req.billingType == Some("PIX")
    ensures b.terms.Some? ==> b.terms == Some(ZeroTerms) && b.postalService == Some(false)
  {
    var pix := req.billingType.value == "PIX";
    PaymentBody(
      req.customerId.value, req.billingType.value, req.value.value,
      OrElse(req.dueDate, today), OrElse(req.description, DefaultPaymentDescription),
      OrNull(req.userId),
      if pix then Some(ZeroTerms) else None,
      if pix then Some(false) else None)
  }

  datatype PaymentRoute =
    | PaymentRejected
    | PaymentSimulated(body: PaymentBody, invoiceUrl: string)
    | PaymentForwarded(body: PaymentBody)

  /** The route's decision.  Only a PIX charge is simulated; any other
      billing type falls through to the gateway call even when the
      environment asks for simulation. */
  function CreatePayment(req: PaymentRequest, env: Env, today: string, token: string): (r: PaymentRoute)
    ensures r.PaymentRejected? <==> !PaymentRequestComplete(req)
    ensures !r.PaymentRejected? ==>
      && Some(r.body.customer) == req.customerId
      && Some(r.body.value) == req.value
      && Some(r.body.billingType) == req.billingType
      && (r.body.terms.Some? <==> r.body.billingType == "PIX")
      && (r.body.terms.Some? ==> r.body.terms.value == ZeroTerms && r.body.postalService == Some(false))
      && (r.body.externalReference.Some? <==> Present(req.userId))
      && (r.body.externalReference.Some? ==> r.body.externalReference == req.userId)
    ensures r.PaymentSimulated? <==>
      PaymentRequestComplete(req) && (IsDevelopment(env) || !Present(env.apiKey)) && req.billingType.value == "PIX"
    // a simulated PIX charge always carries a (non-empty) sandbox invoice URL
    ensures r.PaymentSimulated? ==>
      && |SandboxInvoicePrefix| <= |r.invoiceUrl|
      && r.invoiceUrl[..|SandboxInvoicePrefix|] == SandboxInvoicePrefix
      && r.invoiceUrl != ""
  {
    if !PaymentRequestComplete(req) then PaymentRejected
    else
      var body := PaymentBodyFor(req, today);
      if (IsDevelopment(env) || !Present(env.apiKey)) && body.billingType == "PIX" then
        PaymentSimulated(body, SandboxInvoicePrefix + token)
      else PaymentForwarded(body)
  }

  // ---------------------------------------------------------------------------
  // POST /api/create-subscription
  // ---------------------------------------------------------------------------

  datatype SubscriptionRequest = SubscriptionRequest(
    customerId: Option<string>, value: Option<real>, billingType: Option<string>,
    cycle: Option<string>, description: Option<string>, nextDueDate: Option<string>,
    userId: Option<string>, planId: Option<string>)

  /** The body posted to the gateway's /subscriptions endpoint; an absent
      `externalReference` or `terms` is a key the body does not have. */
  datatype SubscriptionBody = SubscriptionBody(
    customer: string, billingType: string, value: real, nextDueDate: string,
    cycle: string, description: string, externalReference: Option<string>,
    terms: Option<ChargeTerms>)

  /** The row written to the subscriptions table for a new subscription. */
  datatype SubscriptionRow = SubscriptionRow(
    userId: Option<string>, planId: Option<string>, planName: string, planType: string,
    price: real, status: string, nextBillingDate: string, gatewayId: string)

  predicate SubscriptionRequestComplete(req: SubscriptionRequest) {
    Present(req.customerId) && Truthy(req.value) && Present(req.billingType) && Present(req.cycle)
  }

  /** `cycle === 'YEARLY' ? 'annual' : 'monthly'`. */
  function PlanType(cycle: string): (t: string)
    ensures t == "annual" <==> cycle == "YEARLY"
    ensures t == "annual" || t == "monthly"
  {
    if cycle == "YEARLY" then "annual" else "monthly"
  }

  function SubscriptionBodyFor(req: SubscriptionRequest, today: string): (b: SubscriptionBody)
    requires SubscriptionRequestComplete(req)
    ensures Some(b.customer) == req.customerId && Some(b.value) == req.value
    ensures Some(b.billingType) == req.billingType && Some(b.cycle) == req.cycle
    ensures b.nextDueDate == (if Present(req.nextDueDate) then req.nextDueDate.value else today)
    ensures b.description == (if Present(req.description) then req.description.value else DefaultSubscriptionDescription)
    // the externalReference key exists exactly when the user id is truthy
    ensures b.externalReference.Some? <==> Present(req.userId)
    ensures b.externalReference.Some? ==> b.externalReference == req.userId
    // the zero terms exist exactly for PIX and BOLETO
    ensures b.terms.Some? <==> req.billingType in {Some("PIX"), Some("BOLETO")}
    ensures b.terms.Some? ==> b.terms == Some(ZeroTerms)
  {
    var bt := req.billingType.value;
    SubscriptionBody(
      req.customerId.value, bt, req.value.value, OrElse(req.nextDueDate, today),
      req.cycle.value, OrElse(req.description, DefaultSubscriptionDescription),
      if Present(req.userId) then req.userId else None,
      if bt == "PIX" || bt == "BOLETO" then Some(ZeroTerms) else None)
  }

  /** The subscriptions row both branches insert, given the gateway (or
      simulated) id and the next billing date. */
  function SubscriptionRowFor(req: SubscriptionRequest, gatewayId: string, nextBilling: string): (row: SubscriptionRow)
    requires SubscriptionRequestComplete(req)
    ensures row.status == "pending"
    ensures row.planType == "annual" <==> req.cycle == Some("YEARLY")
    ensures row.planType == "monthly" <==> req.cycle != Some("YEARLY")
    ensures row.gatewayId == gatewayId && Some(row.price) == req.value
  {
    SubscriptionRow(
      req.userId, req.planId, OrElse(req.description, DefaultSubscriptionDescription),
      PlanType(req.cycle.value), req.value.value, "pending", nextBilling, gatewayId)
  }

  datatype SubscriptionRoute =
    | SubscriptionRejected
    | SubscriptionSimulated(body: SubscriptionBody, invoiceUrl: Option<string>, row: SubscriptionRow)
    | SubscriptionForwarded(body: SubscriptionBody)

  /** The route's decision.  In simulation the invoice URL exists only for
      PIX and BOLETO, and the subscriptions row is written with the
      simulated id. */
  function CreateSubscription(req: SubscriptionRequest, env: Env, today: string, token: string,
                              mockId: string, nextBilling: string): (r: SubscriptionRoute)
    ensures r.SubscriptionRejected? <==> !SubscriptionRequestComplete(req)
    ensures !r.SubscriptionRejected? ==>
      && Some(r.body.customer) == req.customerId
      && Some(r.body.billingType) == req.billingType
      && Some(r.body.value) == req.value
      && Some(r.body.cycle) == req.cycle
      && (r.body.terms.Some? <==> r.body.billingType in {"PIX", "BOLETO"})
      && (r.body.terms.Some? ==> r.body.terms.value == ZeroTerms)
      && (r.body.externalReference.Some? <==> Present(req.userId))
      && (r.body.externalReference.Some? ==> r.body.externalReference == req.userId)
    ensures r.SubscriptionSimulated? <==>
      SubscriptionRequestComplete(req) && (IsDevelopment(env) || !Present(env.apiKey))
    ensures r.SubscriptionSimulated? ==>
      && (r.invoiceUrl.Some? <==> r.body.billingType in {"PIX", "BOLETO"})
      && r.row.gatewayId == mockId
      && (r.row.planType == "annual" <==> r.body.cycle == "YEARLY")
  {
    if !SubscriptionRequestComplete(req) then SubscriptionRejected
    else
      var body := SubscriptionBodyFor(req, today);
      if IsDevelopment(env) || !Present(env.apiKey) then
        SubscriptionSimulated(
          body,
          if body.billingType == "PIX" || body.billingType == "BOLETO" then Some(SandboxInvoicePrefix + token) else None,
          SubscriptionRowFor(req, mockId, nextBilling))
      else SubscriptionForwarded(body)
  }

  // ---------------------------------------------------------------------------
  // Properties of the three routes
  // ---------------------------------------------------------------------------

  /** The environment decides only whether a customer is forwarded or
      simulated, never what is sent: two environments that both forward
      send the same body, and a simulated customer is the forwarded one
      before its CPF/CNPJ is stripped. */
  lemma CustomerBodyIndependentOfEnv(req: CustomerRequest, env: Env, env': Env)
    ensures CreateCustomer(req, env).CustomerForwarded? && CreateCustomer(req, env').CustomerForwarded? ==>
      CreateCustomer(req, env).body == CreateCustomer(req, env').body
    ensures CreateCustomer(req, env).CustomerRejected? <==> CreateCustomer(req, env').CustomerRejected?
    ensures CreateCustomer(req, env).CustomerForwarded? && CreateCustomer(req, env').CustomerSimulated? ==>
      var sent := CreateCustomer(req, env).body;
      var echoed := CreateCustomer(req, env');
      && sent.cpfCnpj == DigitsOnly(echoed.cpfCnpj)
      && sent.name == echoed.name && sent.email == echoed.email
      && sent.externalReference == echoed.externalReference
  {
  }

  /** A payment body is the same whether the route simulates or forwards,
      whatever the environment and the random token. */
  lemma PaymentBodyIndependentOfEnv(req: PaymentRequest, env: Env, env': Env, today: string, token: string, token': string)
    requires PaymentRequestComplete(req)
    ensures CreatePayment(req, env, today, token).body == CreatePayment(req, env', today, token').body
  {
  }

  /** The PIX-only keys depend on the billing type alone: two requests with
      the same billing type agree on them, whatever else they carry. */
  lemma PixKeysDependOnBillingTypeOnly(req: PaymentRequest, req': PaymentRequest, today: string, today': string)
    requires PaymentRequestComplete(req) && PaymentRequestComplete(req')
    requires req.billingType == req'.billingType
    ensures PaymentBodyFor(req, today).terms == PaymentBodyFor(req', today').terms
    ensures PaymentBodyFor(req, today).postalService == PaymentBodyFor(req', today').postalService
  {
  }

  /** A subscription body is the same whether the route simulates or
      forwards; in simulation an invoice URL comes with exactly the bodies
      that carry the zero terms, the PIX and BOLETO ones. */
  lemma SubscriptionBodyIndependentOfEnv(req: SubscriptionRequest, env: Env, env': Env, today: string,
                                         token: string, token': string, mockId: string, nextBilling: string)
    requires SubscriptionRequestComplete(req)
    ensures CreateSubscription(req, env, today, token, mockId, nextBilling).body
         == CreateSubscription(req, env', today, token', mockId, nextBilling).body
    ensures var r := CreateSubscription(req, env, today, token, mockId, nextBilling);
      r.SubscriptionSimulated? ==> (r.invoiceUrl.Some? <==> r.body.terms.Some?)
  {
  }

  /** The charge-term keys of a subscription depend on the billing type alone. */
  lemma SubscriptionTermsDependOnBillingTypeOnly(req: SubscriptionRequest, req': SubscriptionRequest, today: string, today': string)
    requires SubscriptionRequestComplete(req) && SubscriptionRequestComplete(req')
    requires req.billingType == req'.billingType
    ensures SubscriptionBodyFor(req, today).terms == SubscriptionBodyFor(req', today').terms
  {
  }
}

=== FILE: js_values.dfy ===
/** Values as the JavaScript and TypeScript handlers see them in a JSON
    request body.  Most fields are modelled as absent or present, because
    the code only ever tests them for "truthiness" or replaces a falsy value
    by null, and then a missing key and a JSON null behave alike.  Where the
    difference reaches the store, `JsonString` keeps the three cases apart. */
module JsValues {

  datatype Option<+T> = None | Some(value: T)

  /** Truthiness of an optional string field: absent and "" are both falsy. */
  predicate Present(o: Option<string>) {
    o.Some? && o.value != ""
  }

  /** Truthiness of an optional numeric field: absent and 0 are both falsy
      (NaN, the third falsy number, is not representable here). */
  predicate Truthy(n: Option<real>) {
    n.Some? && n.value != 0.0
  }

  /** `a || b` on optional strings: `a` when truthy, otherwise `b` unchanged. */
  function Or(a: Option<string>, b: Option<string>): Option<string> {
    if Present(a) then a else b
  }

  /** `a || null`: the field is stored as null unless it is truthy. */
  function OrNull(a: Option<string>): (r: Option<string>)
    ensures r.Some? <==> Present(a)
    ensures r.Some? ==> r == a
  {
    Or(a, None)
  }

  /** `a || 'fallback'`: always a string. */
  function OrElse(a: Option<string>, fallback: string): string {
    if Present(a) then a.value else fallback
  }

  /** A string-typed member of a JSON object: a missing key (undefined),
      an explicit null, or a string. */
  datatype JsonString = Undefined | Null | Text(text: string)

  /** Truthiness of a `JsonString`: only a non-empty string is truthy. */
  predicate TruthyText(v: JsonString) {
    v.Text? && v.text != ""
  }

  /** `v || null`: undefined and null both become null. */
  function TextOrNull(v: JsonString): (r: Option<string>)
    ensures r.Some? <==> TruthyText(v)
    ensures r.Some? ==> r.value == v.text
  {
    if TruthyText(v) then Some(v.text) else None
  }

  /** `a || b` on two members: `a` when truthy, otherwise `b` as it is,
      including undefined and null. */
  function TextOr(a: JsonString, b: JsonString): JsonString {
    if TruthyText(a) then a else b
  }
}

=== FILE: n8n_forward.dfy ===
/** Forwarding a checkout to the automation tool (n8n).

    `sendToN8nWebhook` posts the user and plan to a configured URL and
    expects a payment URL back.  It never throws: a missing URL, a failed
    call, or a reply without a payment URL all come back as a failure
    object.  The route POST /api/process-payment/n8n around it validates the
    body, looks the plan up, forwards, logs the attempt to n8n_logs and
    chooses the response.  The HTTP call and the store are inputs: the
    reply the call got, the result of the plan lookup, and whether the log
    insert failed. */
module N8nForward {
  import opened JsValues

  // ---------------------------------------------------------------------------
  // sendToN8nWebhook
  // ---------------------------------------------------------------------------

  /** The parsed reply body, reduced to the member the forwarder reads. */
  datatype ReplyData = ReplyData(paymentUrl: Option<string>)

  /** What the POST produced: a reply (whose body may be empty) or an error. */
  datatype HttpOutcome = Answered(data: Option<ReplyData>) | CallFailed(message: string)

  datatype ForwardResult = ForwardResult(
    success: bool, message: Option<string>, paymentUrl: Option<string>,
    data: Option<ReplyData>, error: Option<string>)

  const MissingUrlError := "Configuração de webhook n8n ausente"
  const NoPaymentUrlMessage := "URL de pagamento não encontrada na resposta do n8n"
  const FailurePrefix := "Erro ao processar pagamento: "

  /** The catch block's result for an error with message `m`. */
  function Caught(m: string): ForwardResult {
    ForwardResult(false, Some(FailurePrefix + m), None, None, Some(m))
  }

  /** The payment URL a reply carries, when it carries a truthy one. */
  predicate HasPaymentUrl(o: HttpOutcome) {
    o.Answered? && o.data.Some? && Present(o.data.value.paymentUrl)
  }

  /** `url` is N8N_WEBHOOK_URL; `outcome` is what the POST to it produced. */
  function SendToN8n(url: Option<string>, outcome: HttpOutcome): (r: ForwardResult)
    // success exactly when a payment URL came back, and then it is that URL
    ensures r.success <==> Present(url) && HasPaymentUrl(outcome)
    ensures r.success <==> r.paymentUrl.Some?
    ensures r.success ==> r.paymentUrl == outcome.data.value.paymentUrl && r.error.None?
    // every failure carries a message and a null payment URL
    ensures !r.success ==> r.paymentUrl.None? && r.message.Some? && r.message.value != ""
    // an error (missing configuration or a failed call) is reported, not thrown
    ensures !Present(url) ==> r == Caught(MissingUrlError)
    ensures Present(url) && outcome.CallFailed? ==> r == Caught(outcome.message)
  {
    if !Present(url) then Caught(MissingUrlError)
    else match outcome
      case CallFailed(m) => Caught(m)
      case Answered(data) =>
        if !HasPaymentUrl(outcome) then ForwardResult(false, Some(NoPaymentUrlMessage), None, data, None)
        else ForwardResult(true, None, data.value.paymentUrl, data, None)
  }

  /** Without a configured URL nothing is posted, so the result is the same
      whatever the call would have produced. */
  lemma UnconfiguredIgnoresReply(url: Option<string>, outcome: HttpOutcome, outcome': HttpOutcome)
    requires !Present(url)
    ensures SendToN8n(url, outcome) == SendToN8n(url, outcome')
    ensures !SendToN8n(url, outcome).success
  {
  }

  /** A configured URL and a reply carrying a non-empty payment URL give a
      success that hands back exactly that URL and the reply's body. */
  lemma PaymentUrlPassedThrough(url: string, paymentUrl: string)
    requires url != "" && paymentUrl != ""
    ensures var data := Some(ReplyData(Some(paymentUrl)));
      SendToN8n(Some(url), Answered(data)) == ForwardResult(true, None, Some(paymentUrl), data, None)
  {
  }

  /** A reply without a usable payment URL is a failure that still carries
      the reply's body and no error: it is not reported as a failed call. */
  lemma ReplyWithoutUrlIsNotAnError(url: string, data: Option<ReplyData>)
    requires url != ""
    requires data.None? || !Present(data.value.paymentUrl)
    ensures SendToN8n(Some(url), Answered(data)) == ForwardResult(false, Some(NoPaymentUrlMessage), None, data, None)
  {
  }

  // ---------------------------------------------------------------------------
  // POST /api/process-payment/n8n
  // ---------------------------------------------------------------------------

  datatype RouteRequest = RouteRequest(
    name: Option<string>, email: Option<string>, cpfCnpj: Option<string>, phone: Option<string>,
    planId: Option<string>, userId: Option<string>, billingType: Option<string>)

  datatype Plan = Plan(name: string, value: real, cycle: string)

  /** `.from('plans').select('*').eq('id', planId).single()`. */
  datatype PlanLookup = PlanFound(plan: Plan) | PlanMissing | PlanLookupError

  datatype User = User(name: string, email: string, cpfCnpj: string, phone: Option<string>, id: string)

  datatype PlanRef = PlanRef(id: string, name: string, value: real, cycle: string)

  /** The body posted to n8n. */
  datatype ForwardRequest = ForwardRequest(user: User, plan: PlanRef, billingType: string)

  datatype LogRow = LogRow(userId: string, planId: string, request: ForwardRequest, response: ForwardResult, success: bool)

  datatype RouteReply = RouteReply(
    status: int, success: bool, message: Option<string>, paymentUrl: Option<string>, error: Option<string>)

  datatype RouteResult = RouteResult(reply: RouteReply, log: seq<LogRow>)

  const IncompleteMessage := "Dados incompletos. Todos os campos são obrigatórios."
  const PlanNotFoundMessage := "Plano não encontrado"
  const DefaultFailureMessage := "Erro ao processar pagamento"
  const InternalMessage := "Erro interno no servidor"
  const NoStoreError := "Cliente Supabase não fornecido"

  predicate Complete(req: RouteRequest) {
    Present(req.name) && Present(req.email) && Present(req.cpfCnpj) &&
    Present(req.planId) && Present(req.userId) && Present(req.billingType)
  }

  function ForwardRequestFor(req: RouteRequest, plan: Plan): ForwardRequest
    requires Complete(req)
  {
    ForwardRequest(
      User(req.name.value, req.email.value, req.cpfCnpj.value, req.phone, req.userId.value),
      PlanRef(req.planId.value, plan.name, plan.value, plan.cycle),
      req.billingType.value)
  }

  /** The whole route.  `hasStore` is whether a store client was passed in;
      `logFails` is whether the n8n_logs insert returned an error, which the
      route ignores. */
  function ProcessPayment(req: RouteRequest, hasStore: bool, lookup: PlanLookup, url: Option<string>,
                          outcome: HttpOutcome, logFails: bool, log: seq<LogRow>): (r: RouteResult)
    ensures r.reply.status == 400 <==> !Complete(req)
    ensures r.reply.status == 404 <==> Complete(req) && hasStore && !lookup.PlanFound?
    ensures r.reply.status in {200, 400, 404, 500}
    ensures r.reply.success <==> r.reply.status == 200
    // the n8n_logs table only ever grows by the one row of a forwarding attempt
    ensures r.log == log || (|r.log| == |log| + 1 && r.log[..|log|] == log)
    ensures |r.log| == |log| + 1 ==>
      && Complete(req) && hasStore && lookup.PlanFound?
      && r.log[|log|].success == r.log[|log|].response.success
      && r.log[|log|].request == ForwardRequestFor(req, lookup.plan)
      && r.log[|log|].userId == req.userId.value && r.log[|log|].planId == req.planId.value
    // a 200 carries the payment URL n8n returned
    ensures r.reply.status == 200 ==> HasPaymentUrl(outcome) && Present(url) && r.reply.paymentUrl == outcome.data.value.paymentUrl
    // without a store client the thrown error is caught as a 500, before any lookup
    ensures Complete(req) && !hasStore ==>
      r.reply == RouteReply(500, false, Some(InternalMessage), None, Some(NoStoreError)) && r.log == log
    // once the plan is found, n8n is called, the row is appended unless its
    // insert fails, and the reply follows n8n's answer whatever the insert did
    ensures Complete(req) && hasStore && lookup.PlanFound? ==>
      && (|r.log| == |log| + 1 <==> !logFails)
      && (r.reply.status == 200 <==> Present(url) && HasPaymentUrl(outcome))
  {
    if !Complete(req) then RouteResult(RouteReply(400, false, Some(IncompleteMessage), None, None), log)
    else if !hasStore then RouteResult(RouteReply(500, false, Some(InternalMessage), None, Some(NoStoreError)), log)
    else if !lookup.PlanFound? then RouteResult(RouteReply(404, false, Some(PlanNotFoundMessage), None, None), log)
    else
      var request := ForwardRequestFor(req, lookup.plan);
      var result := SendToN8n(url, outcome);
      var log' := if logFails then log else log + [LogRow(req.userId.value, req.planId.value, request, result, result.success)];
      if !result.success then
        RouteResult(RouteReply(500, false, Some(OrElse(result.message, DefaultFailureMessage)), None, result.error), log')
      else RouteResult(RouteReply(200, true, None, result.paymentUrl, None), log')
  }

  /** Validation comes first: an incomplete body gets the same 400 whatever
      the plan lookup, the n8n call and the store would have done, so none
      of them is consulted. */
  lemma RejectionPrecedesLookup(req: RouteRequest, hasStore: bool, hasStore': bool,
                                lookup: PlanLookup, lookup': PlanLookup,
                                url: Option<string>, url': Option<string>,
                                outcome: HttpOutcome, outcome': HttpOutcome,
                                logFails: bool, logFails': bool, log: seq<LogRow>)
    requires !Complete(req)
    ensures ProcessPayment(req, hasStore, lookup, url, outcome, logFails, log)
         == ProcessPayment(req, hasStore', lookup', url', outcome', logFails', log)
    ensures ProcessPayment(req, hasStore, lookup, url, outcome, logFails, log).log == log
  {
  }

  /** An unknown plan, or a failed lookup, is a 404 before any forwarding:
      the result does not depend on the n8n configuration or reply, and
      nothing is logged. */
  lemma UnknownPlanPrecedesForwarding(req: RouteRequest, lookup: PlanLookup,
                                      url: Option<string>, url': Option<string>,
                                      outcome: HttpOutcome, outcome': HttpOutcome,
                                      logFails: bool, logFails': bool, log: seq<LogRow>)
    requires Complete(req) && !lookup.PlanFound?
    ensures ProcessPayment(req, true, lookup, url, outcome, logFails, log)
         == ProcessPayment(req, true, lookup, url', outcome', logFails', log)
    ensures ProcessPayment(req, true, lookup, url, outcome, logFails, log).reply.status == 404
    ensures ProcessPayment(req, true, lookup, url, outcome, logFails, log).log == log
  {
  }

  /** Every forwarding attempt whose log insert goes through appends exactly
      one row recording the attempt's outcome; a failed insert appends
      nothing and is otherwise ignored.  Either way the response agrees with
      the outcome: a 500 with the result's message on failure, a 200 with
      the result's payment URL on success. */
  lemma AttemptLoggedAndAnswered(req: RouteRequest, plan: Plan, url: Option<string>,
                                 outcome: HttpOutcome, logFails: bool, log: seq<LogRow>)
    requires Complete(req)
    ensures var result := SendToN8n(url, outcome);
      var r := ProcessPayment(req, true, PlanFound(plan), url, outcome, logFails, log);
      && r.log == (if logFails then log
                   else log + [LogRow(req.userId.value, req.planId.value, ForwardRequestFor(req, plan), result, result.success)])
      && (result.success ==> r.reply == RouteReply(200, true, None, result.paymentUrl, None))
      && (!result.success ==> r.reply.status == 500 && r.reply.message == result.message && r.reply.error == result.error)
  {
  }

  /** A missing store client is a 500 carrying the thrown message, whatever
      the lookup, the n8n call and the log insert would have done; nothing
      is logged. */
  lemma NoStoreIsInternalError(req: RouteRequest, lookup: PlanLookup, url: Option<string>,
                               outcome: HttpOutcome, logFails: bool, log: seq<LogRow>)
    requires Complete(req)
    ensures ProcessPayment(req, false, lookup, url, outcome, logFails, log)
         == RouteResult(RouteReply(500, false, Some(InternalMessage), None, Some(NoStoreError)), log)
  {
  }
}

=== FILE: sql_setup.dfy ===
/** The database setup script: the SQL file is cut into commands by
    `split(';')`, each piece is `trim()`med, empty pieces are dropped, and
    the commands are sent one after another, each with a ';' appended.  An
    error reply or an exception is logged and the loop goes on.  Reading
    the file and the remote procedure call are not modelled: the file's
    text and the reply to each call are inputs. */
module SqlSetup {

  // ---------------------------------------------------------------------------
  // String.prototype.split with a one-character separator
  // ---------------------------------------------------------------------------

  function Occurrences(s: string, c: char): nat {
    if s == [] then 0 else (if s[0] == c then 1 else 0) + Occurrences(s[1..], c)
  }

  /** The pieces between separators: one more piece than there are
      separators, none of them holding the separator. */
  function Split(s: string, sep: char): (r: seq<string>)
    ensures |r| == Occurrences(s, sep) + 1
    ensures forall k :: 0 <= k < |r| ==> sep !in r[k]
  {
    if s == [] then [""]
    else
      var rest := Split(s[1..], sep);
      if s[0] == sep then [""] + rest
      else [[s[0]] + rest[0]] + rest[1..]
  }

  /** `Array.prototype.join` with a one-character separator. */
  function Join(parts: seq<string>, sep: char): string {
    if parts == [] then ""
    else if |parts| == 1 then parts[0]
    else parts[0] + [sep] + Join(parts[1..], sep)
  }

  /** Splitting loses nothing: joining the pieces back gives the text. */
  lemma {:induction false} JoinSplit(s: string, sep: char)
    ensures Join(Split(s, sep), sep) == s
  {
    if s != [] {
      var rest := Split(s[1..], sep);
      JoinSplit(s[1..], sep);
      if s[0] == sep {
        assert Split(s, sep) == [""] + rest;
        assert ([""] + rest)[1..] == rest;
      } else {
        var parts := Split(s, sep);
        assert parts == [[s[0]] + rest[0]] + rest[1..];
        if |rest| == 1 {
          assert Join(parts, sep) == [s[0]] + rest[0];
        } else {
          assert parts[1..] == rest[1..];
          assert Join(rest, sep) == rest[0] + [sep] + Join(rest[1..], sep);
        }
      }
    }
  }

  // ---------------------------------------------------------------------------
  // String.prototype.trim
  // ---------------------------------------------------------------------------

  /** ECMAScript WhiteSpace and LineTerminator code points, the set `trim` removes. */
  predicate IsJsSpace(c: char) {
    c == '\t' || c == '\n' || c == '\U{000B}' || c == '\U{000C}' || c == '\r' || c == ' '
    || c == '\U{00A0}' || c == '\U{1680}' || ('\U{2000}' <= c <= '\U{200A}')
    || c == '\U{2028}' || c == '\U{2029}' || c == '\U{202F}' || c == '\U{205F}'
    || c == '\U{3000}' || c == '\U{FEFF}'
  }

  /** No leading and no trailing white space. */
  predicate Trimmed(s: string) {
    s == [] || (!IsJsSpace(s[0]) && !IsJsSpace(s[|s| - 1]))
  }

  function TrimStart(s: string): (r: string)
    ensures |r| <= |s| && r == s[|s| - |r|..]
    ensures r == [] || !IsJsSpace(r[0])
    ensures forall i :: 0 <= i < |s| - |r| ==> IsJsSpace(s[i])
  {
    if s == [] || !IsJsSpace(s[0]) then s else TrimStart(s[1..])
  }

  function TrimEnd(s: string): (r: string)
    ensures |r| <= |s| && r == s[..|r|]
    ensures r == [] || !IsJsSpace(r[|r| - 1])
    ensures forall i :: |r| <= i < |s| ==> IsJsSpace(s[i])
  {
    if s == [] || !IsJsSpace(s[|s| - 1]) then s else TrimEnd(s[..|s| - 1])
  }

  /** `trim()`: the longest slice with no white space at either end. */
  function Trim(s: string): (r: string)
    ensures Trimmed(r)
  {
    var front := TrimStart(s);
    var r := TrimEnd(front);
    assert r != [] ==> r[0] == front[0];
    r
  }

  /** What `trim()` returns is a contiguous slice of its input, and
      everything cut off on either side is white space. */
  lemma TrimIsSlice(s: string)
    ensures exists a, b ::
      && 0 <= a <= b <= |s| && Trim(s) == s[a..b]
      && (forall i :: 0 <= i < a ==> IsJsSpace(s[i]))
      && (forall i :: b <= i < |s| ==> IsJsSpace(s[i]))
  {
    var front := TrimStart(s);
    var r := TrimEnd(front);
    var a := |s| - |front|;
    assert r == s[a..][..|r|] == s[a..a + |r|];
    assert forall i :: a + |r| <= i < |s| ==> IsJsSpace(s[i]) by {
      forall i | a + |r| <= i < |s| ensures IsJsSpace(s[i]) {
        assert s[i] == front[i - a];
      }
    }
  }

  /** Trimming is idempotent: a trimmed string is its own `trim()`. */
  lemma TrimIdempotent(s: string)
    ensures Trim(Trim(s)) == Trim(s)
  {
    TrimOfTrimmed(Trim(s));
  }

  lemma TrimOfTrimmed(s: string)
    requires Trimmed(s)
    ensures Trim(s) == s
  {
  }

  /** Trimming a piece that holds no ';' cannot produce one. */
  lemma TrimKeepsAbsence(s: string, c: char)
    requires c !in s
    ensures c !in Trim(s)
  {
    TrimIsSlice(s);
    var a, b :| 0 <= a <= b <= |s| && Trim(s) == s[a..b];
    assert forall k :: 0 <= k < b - a ==> s[a..b][k] == s[a + k];
  }

  // ---------------------------------------------------------------------------
  // The command list
  // ---------------------------------------------------------------------------

  /** `.map(trim)`. */
  function TrimAll(parts: seq<string>): (r: seq<string>)
    ensures |r| == |parts|
    ensures forall k :: 0 <= k < |r| ==> r[k] == Trim(parts[k])
  {
    seq(|parts|, k requires 0 <= k < |parts| => Trim(parts[k]))
  }

  /** `.filter(cmd => cmd.length > 0)` over the entries from index `n` on. */
  function NonEmptyFrom(ts: seq<string>, n: nat): seq<string>
    requires n <= |ts|
    decreases |ts| - n
  {
    if n == |ts| then []
    else (if ts[n] != "" then [ts[n]] else []) + NonEmptyFrom(ts, n + 1)
  }

  /** The commands of a script: its non-empty trimmed pieces. */
  function SqlCommands(content: string): seq<string> {
    NonEmptyFrom(TrimAll(Split(content, ';')), 0)
  }

  /** The indices `NonEmptyFrom` keeps, in order. */
  function KeptFrom(ts: seq<string>, n: nat): seq<nat>
    requires n <= |ts|
    decreases |ts| - n
  {
    if n == |ts| then []
    else (if ts[n] != "" then [n] else []) + KeptFrom(ts, n + 1)
  }

  /** The filter keeps exactly the non-empty entries, each once, in order:
      the k-th kept command is entry `KeptFrom(ts, n)[k]`. */
  lemma {:induction false} NonEmptyKeepsInOrder(ts: seq<string>, n: nat)
    requires n <= |ts|
    ensures var cmds, idx := NonEmptyFrom(ts, n), KeptFrom(ts, n);
      && |idx| == |cmds| <= |ts| - n
      && (forall k :: 0 <= k < |cmds| ==> n <= idx[k] < |ts| && cmds[k] == ts[idx[k]] && cmds[k] != "")
      && (forall k, l :: 0 <= k < l < |idx| ==> idx[k] < idx[l])
      && (forall j :: n <= j < |ts| && ts[j] != "" ==> j in idx)
    decreases |ts| - n
  {
    if n < |ts| {
      NonEmptyKeepsInOrder(ts, n + 1);
    }
  }

  /** `.filter(cmd => cmd.length > 0)` as a loop, remembering the index
      each kept command came from. */
  method FilterNonEmpty(ts: seq<string>) returns (cmds: seq<string>, origin: seq<nat>)
    ensures cmds == NonEmptyFrom(ts, 0) && origin == KeptFrom(ts, 0)
  {
    cmds, origin := [], [];
    var i := 0;
    while i < |ts|
      invariant 0 <= i <= |ts|
      invariant cmds + NonEmptyFrom(ts, i) == NonEmptyFrom(ts, 0)
      invariant origin + KeptFrom(ts, i) == KeptFrom(ts, 0)
    {
      if ts[i] != "" {
        assert cmds + NonEmptyFrom(ts, i) == (cmds + [ts[i]]) + NonEmptyFrom(ts, i + 1);
        assert origin + KeptFrom(ts, i) == (origin + [i]) + KeptFrom(ts, i + 1);
        cmds := cmds + [ts[i]];
        origin := origin + [i];
      }
      i := i + 1;
    }
    assert cmds + NonEmptyFrom(ts, i) == cmds;
    assert origin + KeptFrom(ts, i) == origin;
  }

  /** Trims every piece and keeps the non-empty results, remembering for
      each kept command the index of the piece it came from. */
  method TrimAndFilter(pieces: seq<string>) returns (cmds: seq<string>, origin: seq<nat>)
    requires forall j :: 0 <= j < |pieces| ==> ';' !in pieces[j]
    ensures |origin| == |cmds| <= |pieces|
    ensures forall k :: 0 <= k < |cmds| ==> origin[k] < |pieces| && cmds[k] == Trim(pieces[origin[k]])
    ensures forall k, l :: 0 <= k < l < |origin| ==> origin[k] < origin[l]
    ensures forall j :: 0 <= j < |pieces| && Trim(pieces[j]) != "" ==> j in origin
    ensures forall k :: 0 <= k < |cmds| ==> cmds[k] != "" && Trimmed(cmds[k]) && ';' !in cmds[k]
    ensures cmds == NonEmptyFrom(TrimAll(pieces), 0)
  {
    var trimmed := TrimAll(pieces);
    forall j | 0 <= j < |pieces|
      ensures ';' !in trimmed[j]
    {
      TrimKeepsAbsence(pieces[j], ';');
    }
    cmds, origin := FilterNonEmpty(trimmed);
    NonEmptyKeepsInOrder(trimmed, 0);
  }

  /** The script's pieces, its command list, and the piece each command came
      from.  Order, completeness and the shape of each command are the
      facts `TrimAndFilter` states about the same lists. */
  method ParseScript(content: string) returns (pieces: seq<string>, cmds: seq<string>, origin: seq<nat>)
    ensures |pieces| == Occurrences(content, ';') + 1
    ensures |origin| == |cmds| <= |pieces|
    ensures forall k :: 0 <= k < |cmds| ==> origin[k] < |pieces| && cmds[k] == Trim(pieces[origin[k]])
    ensures pieces == Split(content, ';')
    ensures cmds == SqlCommands(content)
  {
    pieces := Split(content, ';');
    cmds, origin := TrimAndFilter(pieces);
  }

  // ---------------------------------------------------------------------------
  // executeSQL
  // ---------------------------------------------------------------------------

  /** The reply to one `exec_sql` call: success, an error object, or an exception. */
  datatype RpcReply = RpcOk | RpcError(detail: string) | RpcThrew(detail: string)

  /** The reply to the i-th call; calls beyond the list succeed. */
  function ReplyAt(replies: seq<RpcReply>, i: nat): RpcReply {
    if i < |replies| then replies[i] else RpcOk
  }

  datatype Attempt = Attempt(index: nat, query: string, reply: RpcReply)

  /** Sends every command once, in order, each with one ';' appended, and
      records the indices whose call failed (the logged errors); a failure
      never stops the loop. */
  method ExecuteSql(cmds: seq<string>, replies: seq<RpcReply>) returns (trace: seq<Attempt>, errorsLogged: seq<nat>)
    ensures |trace| == |cmds|
    ensures forall i :: 0 <= i < |cmds| ==> trace[i] == Attempt(i, cmds[i] + ";", ReplyAt(replies, i))
    ensures forall k :: 0 <= k < |errorsLogged| ==>
      errorsLogged[k] < |cmds| && !ReplyAt(replies, errorsLogged[k]).RpcOk?
    ensures forall i :: 0 <= i < |cmds| && !ReplyAt(replies, i).RpcOk? ==> i in errorsLogged
    ensures forall k, l :: 0 <= k < l < |errorsLogged| ==> errorsLogged[k] < errorsLogged[l]
  {
    trace, errorsLogged := [], [];
    var i := 0;
    while i < |cmds|
      invariant 0 <= i <= |cmds|
      invariant |trace| == i
      invariant forall j :: 0 <= j < i ==> trace[j] == Attempt(j, cmds[j] + ";", ReplyAt(replies, j))
      invariant forall k :: 0 <= k < |errorsLogged| ==>
        errorsLogged[k] < i && !ReplyAt(replies, errorsLogged[k]).RpcOk?
      invariant forall j :: 0 <= j < i && !ReplyAt(replies, j).RpcOk? ==> j in errorsLogged
      invariant forall k, l :: 0 <= k < l < |errorsLogged| ==> errorsLogged[k] < errorsLogged[l]
    {
      var reply := ReplyAt(replies, i);
      trace := trace + [Attempt(i, cmds[i] + ";", reply)];
      match reply {
        case RpcOk =>
        case RpcError(_) => errorsLogged := errorsLogged + [i];
        case RpcThrew(_) => errorsLogged := errorsLogged + [i];
      }
      i := i + 1;
    }
  }

  lemma {:induction false} OccurrencesConcat(a: string, b: string, c: char)
    ensures Occurrences(a + b, c) == Occurrences(a, c) + Occurrences(b, c)
  {
    if a != [] {
      assert (a + b)[1..] == a[1..] + b;
      OccurrencesConcat(a[1..], b, c);
    } else {
      assert a + b == b;
    }
  }

  lemma {:induction false} NoOccurrences(s: string, c: char)
    requires c !in s
    ensures Occurrences(s, c) == 0
  {
    if s != [] {
      assert c !in s[1..];
      NoOccurrences(s[1..], c);
    }
  }

  /** Each sent query ends in ';' and holds no other. */
  lemma SentQueryHasOneTerminator(cmd: string)
    requires ';' !in cmd
    ensures Occurrences(cmd + ";", ';') == 1
    ensures (cmd + ";")[|cmd|] == ';'
  {
    OccurrencesConcat(cmd, ";", ';');
    NoOccurrences(cmd, ';');
  }

  /** The script from text to calls: every command is attempted exactly
      once, in source order, as a query with exactly one ';', at its end. */
  method RunSetup(content: string, replies: seq<RpcReply>) returns (cmds: seq<string>, trace: seq<Attempt>, errorsLogged: seq<nat>)
    ensures |trace| == |cmds|
    ensures forall i :: 0 <= i < |trace| ==>
      && trace[i].index == i
      && trace[i].reply == ReplyAt(replies, i)
      && Occurrences(trace[i].query, ';') == 1
      && trace[i].query == cmds[i] + ";"
    ensures cmds == SqlCommands(content)
  {
    var pieces, origin;
    pieces, cmds, origin := ParseScript(content);
    trace, errorsLogged := ExecuteSql(cmds, replies);
    forall i | 0 <= i < |trace|
      ensures Occurrences(trace[i].query, ';') == 1
    {
      SentQueryHasOneTerminator(cmds[i]);
    }
  }
}

=== FILE: webhook_dispatch.dfy ===
/** The Express receiver for gateway notifications (POST /api/webhook/asaas).

    The receiver validates the payload, appends one row describing the
    delivery to the asaas_logs table with processed = false, dispatches the
    event string to one of seven handlers, and finally flips that row to
    processed = true.  The handlers write nothing but further asaas_logs rows
    (PAYMENT_<STATUS> and SUBSCRIPTION_<STATUS>): this variant of the
    receiver keeps no payments or subscriptions table of its own.

    Store calls are numbered 0, 1, 2, ... in the order the request makes them;
    `faults` is the set of numbers whose call comes back with an error. */
module WebhookDispatch {
  import opened JsValues

  // ---------------------------------------------------------------------------
  // Statuses and the event types derived from them
  // ---------------------------------------------------------------------------

  datatype Status = Pending | Active | Confirmed | Overdue | Canceled

  /** The lower-case status string the handlers pass around. */
  function StatusName(s: Status): string {
    match s
    case Pending => "pending"
    case Active => "active"
    case Confirmed => "confirmed"
    case Overdue => "overdue"
    case Canceled => "canceled"
  }

  /** `toUpperCase` on one character; the status names are plain ASCII. */
  function UpperChar(c: char): char {
    if 'a' <= c <= 'z' then (c as int - 32) as char else c
  }

  function ToUpper(s: string): (r: string)
    ensures |r| == |s|
    // no lower-case letter is left
    ensures forall i :: 0 <= i < |r| ==> !('a' <= r[i] <= 'z')
    // each lower-case letter becomes its capital, 32 code points below it
    ensures forall i :: 0 <= i < |s| && 'a' <= s[i] <= 'z' ==> r[i] as int == s[i] as int - 32
    // every other character is kept
    ensures forall i :: 0 <= i < |s| && !('a' <= s[i] <= 'z') ==> r[i] == s[i]
  {
    seq(|s|, i requires 0 <= i < |s| => UpperChar(s[i]))
  }

  /** event_type of the row `updatePayment` appends. */
  function PaymentEventType(s: Status): string {
    "PAYMENT_" + ToUpper(StatusName(s))
  }

  /** event_type of the row `updateSubscriptionStatus` appends. */
  function SubscriptionEventType(s: Status): string {
    "SUBSCRIPTION_" + ToUpper(StatusName(s))
  }

  // ---------------------------------------------------------------------------
  // Payload, log rows and the store
  // ---------------------------------------------------------------------------

  /** The fields of `event.payment` the handlers read; the rest of the object
      travels into the log unexamined. */
  datatype Payment = Payment(id: Option<string>, subscription: Option<string>)

  datatype SubscriptionPayload = SubscriptionPayload(id: Option<string>)

  /** The JSON body of a delivery. */
  datatype Delivery = Delivery(
    event: Option<string>,
    payment: Option<Payment>,
    subscription: Option<SubscriptionPayload>)

  /** The `webhook_data` column: the whole delivery, a payment snapshot, or
      the `{id, status}` object of a subscription status change. */
  datatype LogData =
    | Received(body: Delivery)
    | PaymentSnapshot(payment: Option<Payment>)
    | StatusChange(id: Option<string>, status: string)

  datatype LogRow = LogRow(eventType: string, data: LogData, processed: bool)

  /** The asaas_logs table and the number of store calls made so far. */
  datatype Store = Store(log: seq<LogRow>, calls: nat)

  /** Why a request ended in a 500: a store call returned an error, or a
      handler read a property of a missing payload object (a TypeError). */
  datatype Failure = StoreError | UndefinedRead

  datatype Outcome = Outcome(store: Store, failure: Option<Failure>)

  /** One insert into asaas_logs. */
  function Append(st: Store, row: LogRow, faults: set<nat>): (o: Outcome)
    ensures o.store.calls == st.calls + 1
    ensures o.failure.Some? <==> st.calls in faults
    ensures o.failure.None? ==> o.store.log == st.log + [row]
    ensures o.failure.Some? ==> o.failure == Some(StoreError) && o.store.log == st.log
  {
    if st.calls in faults then Outcome(Store(st.log, st.calls + 1), Some(StoreError))
    else Outcome(Store(st.log + [row], st.calls + 1), None)
  }

  // ---------------------------------------------------------------------------
  // The helpers and the seven handlers
  // ---------------------------------------------------------------------------

  /** `updatePayment`: append the payment snapshot as PAYMENT_<STATUS>; the
      success message then reads `payment.id`, which throws when the
      delivery carried no payment object. */
  function UpdatePayment(st: Store, payment: Option<Payment>, status: Status, faults: set<nat>): (o: Outcome)
    ensures o.store.calls == st.calls + 1
    // a failed insert writes nothing
    ensures st.calls in faults ==> o.failure == Some(StoreError) && o.store.log == st.log
    // a successful insert appends the processed payment row, even when the
    // payment object is missing, and only then does the request fail
    ensures st.calls !in faults ==>
      && o.store.log == st.log + [LogRow(PaymentEventType(status), PaymentSnapshot(payment), true)]
      && (o.failure.Some? <==> payment.None?)
      && (o.failure.Some? ==> o.failure == Some(UndefinedRead))
  {
    var o := Append(st, LogRow(PaymentEventType(status), PaymentSnapshot(payment), true), faults);
    if o.failure.Some? then o
    else if payment.None? then Outcome(o.store, Some(UndefinedRead))
    else o
  }

  /** `updateSubscriptionStatus`: append `{id, status}` as SUBSCRIPTION_<STATUS>. */
  function UpdateSubscriptionStatus(st: Store, id: Option<string>, status: Status, faults: set<nat>): (o: Outcome)
    ensures o.store.calls == st.calls + 1
    ensures o.failure.Some? <==> st.calls in faults
    ensures o.failure.Some? ==> o.store.log == st.log
    // the appended row names the subscription and its lower-case status,
    // under SUBSCRIPTION_ and the upper-cased status
    ensures o.failure.None? ==>
      && |o.store.log| == |st.log| + 1 && o.store.log[..|st.log|] == st.log
      && o.store.log[|st.log|].data == StatusChange(id, StatusName(status))
      && o.store.log[|st.log|].eventType == "SUBSCRIPTION_" + ToUpper(StatusName(status))
      && o.store.log[|st.log|].processed
  {
    Append(st, LogRow(SubscriptionEventType(status), StatusChange(id, StatusName(status)), true), faults)
  }

  /** The shared shape of the received, confirmed and overdue handlers: log
      the payment, then, when `payment.subscription` is truthy, log the
      subscription's new status. */
  function PaymentAndSubscription(st: Store, payment: Option<Payment>, paid: Status, sub: Status, faults: set<nat>): Outcome {
    var o := UpdatePayment(st, payment, paid, faults);
    if o.failure.Some? then o
    else if Present(payment.value.subscription) then
      UpdateSubscriptionStatus(o.store, payment.value.subscription, sub, faults)
    else o
  }

  /** The subscription handlers read `subscription.id` before any store call. */
  function SubscriptionOnly(st: Store, sub: Option<SubscriptionPayload>, status: Status, faults: set<nat>): Outcome {
    if sub.None? then Outcome(st, Some(UndefinedRead))
    else UpdateSubscriptionStatus(st, sub.value.id, status, faults)
  }

  datatype Handler =
    | OnPaymentReceived
    | OnPaymentConfirmed
    | OnPaymentOverdue
    | OnPaymentCanceled
    | OnSubscriptionCreated
    | OnSubscriptionRenewed
    | OnSubscriptionCanceled

  /** The `switch (event.event)` of the receiver. */
  function Classify(event: string): (r: Option<Handler>)
    ensures r.Some? <==> event in KnownEvents
    ensures r.Some? ==> event in EventsOf(r.value)
  {
    if event == "PAYMENT_RECEIVED" then Some(OnPaymentReceived)
    else if event == "PAYMENT_CONFIRMED" then Some(OnPaymentConfirmed)
    else if event == "PAYMENT_OVERDUE" then Some(OnPaymentOverdue)
    else if event == "PAYMENT_DELETED" || event == "PAYMENT_REFUNDED" || event == "PAYMENT_CANCELED" then Some(OnPaymentCanceled)
    else if event == "SUBSCRIPTION_CREATED" then Some(OnSubscriptionCreated)
    else if event == "SUBSCRIPTION_RENEWED" then Some(OnSubscriptionRenewed)
    else if event == "SUBSCRIPTION_CANCELED" then Some(OnSubscriptionCanceled)
    else None
  }

  function RunHandler(h: Handler, d: Delivery, st: Store, faults: set<nat>): (o: Outcome)
    // a handler whose payload object is missing fails
    ensures !HasPayload(h, d) ==> o.failure.Some?
    // with no store errors it appends exactly the rows of the effect tables
    ensures HasPayload(h, d) && faults == {} ==>
      o.failure.None? && o.store.log == st.log + ExpectedRows(h, d)
  {
    match h
    case OnPaymentReceived => PaymentAndSubscription(st, d.payment, Confirmed, Active, faults)
    case OnPaymentConfirmed => PaymentAndSubscription(st, d.payment, Confirmed, Active, faults)
    case OnPaymentOverdue => PaymentAndSubscription(st, d.payment, Overdue, Overdue, faults)
    case OnPaymentCanceled => UpdatePayment(st, d.payment, Canceled, faults)
    case OnSubscriptionCreated => SubscriptionOnly(st, d.subscription, Pending, faults)
    case OnSubscriptionRenewed => SubscriptionOnly(st, d.subscription, Active, faults)
    case OnSubscriptionCanceled => SubscriptionOnly(st, d.subscription, Canceled, faults)
  }

  // ---------------------------------------------------------------------------
  // The route
  // ---------------------------------------------------------------------------

  /** The response envelope, reduced to what distinguishes the outcomes. */
  datatype Reply =
    | BadRequest
    | Acknowledged(eventType: string, handled: bool)
    | ServerError(failure: Failure)

  function HttpStatus(r: Reply): int {
    match r
    case BadRequest => 400
    case Acknowledged(_, _) => 200
    case ServerError(_) => 500
  }

  datatype Handled = Handled(reply: Reply, log: seq<LogRow>)

  /** `.update({ processed: true }).eq('id', webhookId)`. */
  function MarkProcessed(log: seq<LogRow>, id: nat): seq<LogRow> {
    if id < |log| then log[id := log[id].(processed := true)] else log
  }

  predicate HasEvent(body: Option<Delivery>) {
    body.Some? && Present(body.value.event)
  }

  /** The whole POST /api/webhook/asaas handler. */
  function HandleWebhook(body: Option<Delivery>, log: seq<LogRow>, faults: set<nat>): (r: Handled)
    // append-only: every row that was there stays there untouched
    ensures |log| <= |r.log| && r.log[..|log|] == log
    // a missing or empty `event` is a 400 and nothing is written
    ensures HttpStatus(r.reply) == 400 <==> !HasEvent(body)
    ensures !HasEvent(body) ==> r.log == log
    // the first store call failing is a 500 with nothing written
    ensures HasEvent(body) && 0 in faults ==> r == Handled(ServerError(StoreError), log)
    // otherwise the delivery row is the first new row, and it ends processed
    // exactly when the reply says the event was handled
    ensures HasEvent(body) && 0 !in faults ==>
      && |r.log| > |log|
      && r.log[|log|].eventType == body.value.event.value
      && r.log[|log|].data == Received(body.value)
      && (r.log[|log|].processed <==> r.reply == Acknowledged(body.value.event.value, true))
    // a 200 names the received event, and `handled` is whether it was recognised
    ensures r.reply.Acknowledged? ==>
      && HasEvent(body)
      && r.reply.eventType == body.value.event.value
      && (r.reply.handled <==> Classify(body.value.event.value).Some?)
    // an unrecognised event gets a 200 and exactly one unprocessed row
    ensures HasEvent(body) && 0 !in faults && Classify(body.value.event.value).None? ==>
      r == Handled(Acknowledged(body.value.event.value, false),
                   log + [LogRow(body.value.event.value, Received(body.value), false)])
    // a recognised event is acknowledged as handled exactly when its handler
    // ran without error and the processed-flag update succeeded; otherwise
    // the reply is a 500 and the delivery row stays unprocessed.  Either way
    // the rows after the delivery row are the ones the handler wrote, those
    // written before a failure included
    ensures HasEvent(body) && 0 !in faults && Classify(body.value.event.value).Some? ==>
      var st := Store(log + [LogRow(body.value.event.value, Received(body.value), false)], 1);
      var o := RunHandler(Classify(body.value.event.value).value, body.value, st, faults);
      && (r.reply == Acknowledged(body.value.event.value, true) <==> o.failure.None? && o.store.calls !in faults)
      && (r.reply != Acknowledged(body.value.event.value, true) ==> r.reply.ServerError? && !r.log[|log|].processed)
      && |r.log| == |o.store.log|
      && r.log[|log| + 1..] == o.store.log[|log| + 1..]
  {
    if !HasEvent(body) then Handled(BadRequest, log)
    else
      var d := body.value;
      var e := d.event.value;
      var id := |log|;
      var first := Append(Store(log, 0), LogRow(e, Received(d), false), faults);
      if first.failure.Some? then Handled(ServerError(StoreError), first.store.log)
      else
        match Classify(e)
        case None => Handled(Acknowledged(e, false), first.store.log)
        case Some(h) =>
          var o := RunHandler(h, d, first.store, faults);
          HandlerPrefix(h, d, first.store, faults);
          if o.failure.Some? then Handled(ServerError(o.failure.value), o.store.log)
          else if o.store.calls in faults then Handled(ServerError(StoreError), o.store.log)
          else Handled(Acknowledged(e, true), MarkProcessed(o.store.log, id))
  }

  /** Handlers only append: the log they start from is a prefix of the log
      they leave, and every row they append is already processed. */
  lemma HandlerPrefix(h: Handler, d: Delivery, st: Store, faults: set<nat>)
    ensures var o := RunHandler(h, d, st, faults);
      && |st.log| <= |o.store.log|
      && o.store.log[..|st.log|] == st.log
      && (forall i :: |st.log| <= i < |o.store.log| ==> o.store.log[i].processed)
  {
  }

  // ---------------------------------------------------------------------------
  // Properties
  // ---------------------------------------------------------------------------

  /** The event strings the receiver recognises. */
  const KnownEvents: set<string> := {
    "PAYMENT_RECEIVED", "PAYMENT_CONFIRMED", "PAYMENT_OVERDUE",
    "PAYMENT_DELETED", "PAYMENT_REFUNDED", "PAYMENT_CANCELED",
    "SUBSCRIPTION_CREATED", "SUBSCRIPTION_RENEWED", "SUBSCRIPTION_CANCELED"
  }

  /** The event name each handler is registered under (the canceled handler
      is registered under three). */
  function EventsOf(h: Handler): set<string> {
    match h
    case OnPaymentReceived => {"PAYMENT_RECEIVED"}
    case OnPaymentConfirmed => {"PAYMENT_CONFIRMED"}
    case OnPaymentOverdue => {"PAYMENT_OVERDUE"}
    case OnPaymentCanceled => {"PAYMENT_DELETED", "PAYMENT_REFUNDED", "PAYMENT_CANCELED"}
    case OnSubscriptionCreated => {"SUBSCRIPTION_CREATED"}
    case OnSubscriptionRenewed => {"SUBSCRIPTION_RENEWED"}
    case OnSubscriptionCanceled => {"SUBSCRIPTION_CANCELED"}
  }

  /** The switch is exactly the registration table: an event reaches handler
      `h` if and only if it is one of `h`'s names, and is recognised if and
      only if it is one of the nine known names. */
  lemma ClassifyMatchesRegistration(e: string, h: Handler)
    ensures Classify(e) == Some(h) <==> e in EventsOf(h)
    ensures Classify(e).Some? <==> e in KnownEvents
  {
  }

  /** PAYMENT_DELETED, PAYMENT_REFUNDED and PAYMENT_CANCELED share one handler. */
  lemma CanceledAliases()
    ensures Classify("PAYMENT_DELETED") == Classify("PAYMENT_REFUNDED") == Classify("PAYMENT_CANCELED") == Some(OnPaymentCanceled)
  {
  }

  /** The derived rows are named with the prefix and the upper-cased status. */
  lemma DerivedEventNames()
    ensures PaymentEventType(Confirmed) == "PAYMENT_CONFIRMED"
    ensures PaymentEventType(Overdue) == "PAYMENT_OVERDUE"
    ensures PaymentEventType(Canceled) == "PAYMENT_CANCELED"
    ensures SubscriptionEventType(Pending) == "SUBSCRIPTION_PENDING"
    ensures SubscriptionEventType(Active) == "SUBSCRIPTION_ACTIVE"
    ensures SubscriptionEventType(Overdue) == "SUBSCRIPTION_OVERDUE"
    ensures SubscriptionEventType(Canceled) == "SUBSCRIPTION_CANCELED"
  {
    UpperStatusNames();
  }

  /** The upper-cased status names. */
  lemma UpperStatusNames()
    ensures ToUpper("confirmed") == "CONFIRMED"
    ensures ToUpper("overdue") == "OVERDUE"
    ensures ToUpper("canceled") == "CANCELED"
    ensures ToUpper("pending") == "PENDING"
    ensures ToUpper("active") == "ACTIVE"
  {
  }

  /** The payment status each handler records, if any. */
  function PaymentEffect(h: Handler): Option<Status> {
    match h
    case OnPaymentReceived => Some(Confirmed)
    case OnPaymentConfirmed => Some(Confirmed)
    case OnPaymentOverdue => Some(Overdue)
    case OnPaymentCanceled => Some(Canceled)
    case _ => None
  }

  /** The subscription status each handler records, if any. */
  function SubscriptionEffect(h: Handler): Option<Status> {
    match h
    case OnPaymentReceived => Some(Active)
    case OnPaymentConfirmed => Some(Active)
    case OnPaymentOverdue => Some(Overdue)
    case OnPaymentCanceled => None
    case OnSubscriptionCreated => Some(Pending)
    case OnSubscriptionRenewed => Some(Active)
    case OnSubscriptionCanceled => Some(Canceled)
  }

  /** Whether the payload object the handler reads is there. */
  predicate HasPayload(h: Handler, d: Delivery) {
    if PaymentEffect(h).Some? then d.payment.Some? else d.subscription.Some?
  }

  /** The subscription id a handler's status row carries, if it writes one:
      the payment's `subscription` when truthy, or the subscription's `id`. */
  function SubscriptionTarget(h: Handler, d: Delivery): Option<Option<string>>
    requires HasPayload(h, d)
  {
    if SubscriptionEffect(h).None? then None
    else if PaymentEffect(h).Some? then
      (if Present(d.payment.value.subscription) then Some(d.payment.value.subscription) else None)
    else Some(d.subscription.value.id)
  }

  /** The rows a handler appends when every store call succeeds, read off the
      effect tables above rather than off the handler bodies. */
  function ExpectedRows(h: Handler, d: Delivery): seq<LogRow>
    requires HasPayload(h, d)
  {
    (if PaymentEffect(h).Some?
     then [LogRow(PaymentEventType(PaymentEffect(h).value), PaymentSnapshot(d.payment), true)]
     else [])
    + (match SubscriptionTarget(h, d)
       case Some(id) => [LogRow(SubscriptionEventType(SubscriptionEffect(h).value), StatusChange(id, StatusName(SubscriptionEffect(h).value)), true)]
       case None => [])
  }

  /** With no store errors and the payload present, a recognised event is
      acknowledged as handled, its delivery row ends processed, and after it
      come exactly the rows of the effect tables. */
  lemma AllStepsSucceed(d: Delivery, log: seq<LogRow>, h: Handler)
    requires Present(d.event) && Classify(d.event.value) == Some(h)
    requires HasPayload(h, d)
    ensures HandleWebhook(Some(d), log, {}) ==
      Handled(Acknowledged(d.event.value, true),
              log + [LogRow(d.event.value, Received(d), true)] + ExpectedRows(h, d))
  {
    var e := d.event.value;
    var first := Append(Store(log, 0), LogRow(e, Received(d), false), {});
    var o := RunHandler(h, d, first.store, {});
    var rows := ExpectedRows(h, d);
    assert o.failure.None? && o.store.log == first.store.log + rows;
    assert MarkProcessed(o.store.log, |log|) == log + [LogRow(e, Received(d), true)] + rows;
  }

  /** Canceled, deleted and refunded payments never write a subscription
      row, whatever the store does. */
  lemma CanceledLeavesSubscriptionAlone(d: Delivery, log: seq<LogRow>, faults: set<nat>)
    requires Present(d.event) && Classify(d.event.value) == Some(OnPaymentCanceled)
    ensures var r := HandleWebhook(Some(d), log, faults);
      forall i :: |log| <= i < |r.log| ==> !r.log[i].data.StatusChange?
  {
  }

  /** The scenario of an overdue subscription payment: both the payment and
      the subscription are logged as overdue and the reply is a handled 200. */
  lemma OverdueScenario(log: seq<LogRow>)
    ensures var d := Delivery(Some("PAYMENT_OVERDUE"), Some(Payment(Some("pay_1"), Some("sub_1"))), None);
      HandleWebhook(Some(d), log, {}) ==
      Handled(Acknowledged("PAYMENT_OVERDUE", true),
              log + [ LogRow("PAYMENT_OVERDUE", Received(d), true),
                      LogRow("PAYMENT_OVERDUE", PaymentSnapshot(d.payment), true),
                      LogRow("SUBSCRIPTION_OVERDUE", StatusChange(Some("sub_1"), "overdue"), true) ])
  {
    var d := Delivery(Some("PAYMENT_OVERDUE"), Some(Payment(Some("pay_1"), Some("sub_1"))), None);
    AllStepsSucceed(d, log, OnPaymentOverdue);
    DerivedEventNames();
  }

  /** A payment event without a payment object still logs the payment row,
      then fails on `payment.id`: a 500, and the delivery row stays unprocessed. */
  lemma MissingPaymentIsServerError(e: string, log: seq<LogRow>)
    requires Classify(e).Some? && PaymentEffect(Classify(e).value).Some?
    ensures var d := Delivery(Some(e), None, None);
      var r := HandleWebhook(Some(d), log, {});
      && r.reply == ServerError(UndefinedRead)
      && |r.log| == |log| + 2
      && !r.log[|log|].processed
      && r.log[|log| + 1] == LogRow(PaymentEventType(PaymentEffect(Classify(e).value).value), PaymentSnapshot(None), true)
  {
  }

  /** A failure part-way through a handler keeps what was written before it:
      when the subscription insert of a paid subscription payment fails, the
      reply is a 500, the delivery row stays unprocessed, and the payment
      row written just before stays in the log. */
  lemma PartialFailureKeepsEarlierRows(e: string, p: Payment, log: seq<LogRow>)
    requires Classify(e).Some? && SubscriptionEffect(Classify(e).value).Some? && PaymentEffect(Classify(e).value).Some?
    requires Present(p.subscription)
    ensures var d := Delivery(Some(e), Some(p), None);
      HandleWebhook(Some(d), log, {2}) ==
      Handled(ServerError(StoreError),
              log + [ LogRow(e, Received(d), false),
                      LogRow(PaymentEventType(PaymentEffect(Classify(e).value).value), PaymentSnapshot(Some(p)), true) ])
  {
  }
}
